=== FILE: README.md ===
# grunt-bake template expansion in Dafny

This project models the template expander of grunt-bake (`tasks/bake.js`).

grunt-bake bakes a source file by expanding include directives of the form
`<!--(bake path key="value" ...)-->`. Each directive is replaced by the named
file's content, which is indented like the directive and expanded recursively.
Before that, a content processor replaces every `{{key}}` placeholder with the
value of a dotted name in a data object.

The model covers these parts of the source:

- the default processor `defaultProcess`;
- the dotted-name lookups `resolveName` and `hasValue`;
- the directive grammar (line 48) and the attribute grammar (line 53);
- `parseInlineOptions`;
- `directory` and the resolution of include paths;
- `applyIndent`;
- the recursive `parse`, including the `_if` gate and the merge of inline options into the shared data object;
- the normalisation of the `basePath` option.

Modules, one file each:

- `Optional`, `Strings`: an option type; splitting and joining at a separator; character classes.
- `Scanner`: the left-to-right, non-overlapping scan a global JavaScript regular expression performs under `replace` and a repeated `exec`. The module includes:
  - the scan;
  - a reference definition of a leftmost scan;
  - proofs that the scan meets that definition and is unique.
- `Data`: the data tree, and `resolveName` and `hasValue` over it.
- `Placeholders`: the `{{key}}` grammar and `defaultProcess`.
- `Directives`: the directive grammar as a hand-written matcher.
- `InlineOptions`: the attribute grammar and `parseInlineOptions`.
- `Paths`: `directory`, include-path resolution and base-path normalisation.
- `Indent`: `applyIndent` and its inverse.
- `Expander`: `parse` as a fuel-bounded recursion.
  - Reading a file is a lookup in a map from paths to contents.
  - The data object is threaded through the expansion and returned with the text, so every mutation the source makes is visible in the result.
- `Scenarios`: whole-text consequences of `parse` for every path, key and value of the stated shape. They cover:
  - when an inline option becomes visible;
  - the `_if` gate;
  - includes rendered in place.

### Behaviour worth knowing

- **A placeholder in the including text does not see its own directive's option.** `parse` runs the processor over the whole text (lines 161-163) before any directive is replaced and its options merged (lines 165, 179). So a `{{key}}` after `(bake a key="X")` in the same text has already been resolved against the data as it was. `Scenarios.OptionHiddenFromIncludingText` states this. Later sibling includes and nested includes do see the option (`Scenarios.OptionSeenByLaterSibling`, `Scenarios.OptionLeaksFromNestedInclude`).
- **`directory` of a path without `/` is the empty string.** `split` gives one segment, `pop` removes it and `join` of nothing is `""` (lines 70-76). A relative include from such a file therefore resolves to `"/" + path` (line 184). See `Paths.RelativeIncludeFromBareName`.
- **The attribute key group `[\S_]+` is greedy and backtracks.** In `a="x=" b="y"`, it takes `a="x` as the key with the value ` b=` (`InlineOptions.GreedyKeyExample`). Rendered attributes are proved to read back as themselves when no value ends in `=` (`InlineOptions.ParseRenderedAttrs`). That condition is sufficient, not necessary: a single pair such as `a="x="` also reads back.
- **An included body is indented before it is processed.** `parse` reads and indents the file (lines 187-188) and only the recursive call processes it (lines 161-163). So a `{{key}}` whose value spans several lines, included under an indent, carries the indent on its first line only (`Scenarios.IndentedToken`, `Scenarios.IndentAfterwardsDiffers`).
- **The indent class `[ |\t]` contains a literal `|`.**

## Model

| member | source | states |
|---|---|---|
| Data.ResolveName | tasks/bake.js:95-112 | `resolveName`; its meaning is stated by `Data.ResolveNameMeaning` and `Data.ResolvedImpliesHasValue` |
| Data.HasValue | tasks/bake.js:117-133 | `hasValue`; its meaning is stated by `Data.HasValueMeaning` |
| Data.WalkReaches | tasks/bake.js:95-109 | the segment-by-segment walk finds a value exactly when a chain of own properties leads from the root to it |
| Data.ResolveNameMeaning | tasks/bake.js:95-112 | `resolveName` gives the text of the value reached when that value is truthy; it gives `""` when some segment is absent or the value is falsy |
| Data.HasValueMeaning | tasks/bake.js:117-133 | `hasValue` holds exactly when some value other than `false` is reached; an empty string or an object counts as present |
| Data.ResolvedImpliesHasValue | tasks/bake.js:95-133 | a name that resolves to non-empty text passes `hasValue`; a name failing `hasValue` resolves to `""` |
| Data.ResolveTopLevel | tasks/bake.js:95-133 | for a name without dots, both lookups are a plain own-property test on the data object |
| Placeholders.DefaultProcess | tasks/bake.js:22-26 | `defaultProcess`; see `Placeholders.ProcessToken` and `Placeholders.NoPlaceholderUnchanged` |
| Placeholders.PlaceholderAt | tasks/bake.js:23 | a recognised token is `{{`, a key of word characters, dots and hyphens, and `}}`, with its length |
| Placeholders.PlaceholderRoundTrip | tasks/bake.js:23 | `{{key}}` with a key of that class is recognised as that key, whatever follows |
| Placeholders.NoPlaceholderUnchanged | tasks/bake.js:22-26 | text in which no token starts comes out of the default processor unchanged |
| Placeholders.ProcessToken | tasks/bake.js:22-26 | a token is replaced by `resolveName` of its key; replacement goes left to right and resumes after each token |
| Scanner.Replace | tasks/bake.js:23 | `String.prototype.replace` with a callback over a global expression: every match replaced by the callback's text, everything else copied; see `Scanner.ReplaceSkipsLiteral` and `Scanner.ReplaceAfterHit` |
| Scanner.ReplaceSkipsLiteral | tasks/bake.js:23 | text in front of which no match starts is copied unchanged, and replacement resumes after it |
| Scanner.ReplaceAfterHit | tasks/bake.js:23 | a match at the start is replaced by the callback's text for it, and replacement resumes right after the match |
| Scanner.ScanSpans | tasks/bake.js:23 | the pieces of a global scan span exactly the scanned text |
| Scanner.ScanIsLeftmost | tasks/bake.js:23 | the scan alternates maximal token-free stretches with the tokens recognised at the leftmost positions |
| Scanner.LeftmostIsScan | tasks/bake.js:23 | any decomposition meeting the leftmost-scan definition is the scan, so the scan is unique |
| Directives.DirectiveAt | tasks/bake.js:48 | a recognised directive has an indent of space, `\|` and tab, a non-empty path of `[\w/.\-]`, and attributes without `>` |
| Directives.RenderRoundTrip | tasks/bake.js:48 | a well-formed directive written out as `<!--(bake path attrs)-->` is recognised as itself, spanning exactly its text |
| Directives.SpellRoundTrip | tasks/bake.js:48 | a well-formed directive written with any whitespace the expression allows (at most one character after `<!--(`, a non-empty run after `bake`, at most one after the path) is recognised as itself, spanning exactly its text, provided the attributes cannot be read as part of the path or of that whitespace |
| Directives.DirectiveAtSound | tasks/bake.js:48 | every match is a well-formed directive whose matched text is that directive written with such whitespace; with `SpellRoundTrip`, the matcher accepts exactly those spellings |
| Directives.NoBangNoDirective | tasks/bake.js:48 | text without `!` holds no directive |
| InlineOptions.AttrAtMeaning | tasks/bake.js:53 | an attribute matches exactly when some key length admits `="value"`; the key taken is the longest such |
| InlineOptions.ParseInlineOptions | tasks/bake.js:81-90 | every key set has no whitespace, and every value is non-empty and free of quotes |
| InlineOptions.ParseInlineOptionsLastWins | tasks/bake.js:85-87 | a key carried by some match is set to the value of the last match carrying it |
| InlineOptions.ParseInlineOptionsUnset | tasks/bake.js:85-87 | a key carried by no match is not set |
| InlineOptions.NoOptions | tasks/bake.js:81-90 | an empty attribute text sets no option |
| InlineOptions.ParseRenderedAttrs | tasks/bake.js:81-90 | attributes written as `key="value"` separated by spaces parse back to the map they describe, a repeated key keeping its last value |
| InlineOptions.NoMatchNoOptions | tasks/bake.js:81-90 | an attribute text in which the expression matches at no position, such as `junk`, sets no option |
| InlineOptions.GreedyKeyExample | tasks/bake.js:53 | in `a="x=" b="y"` the greedy key group takes `a="x` as the key with the value ` b=` |
| Paths.Directory | tasks/bake.js:70-76 | `directory`; see `Paths.DirectoryIsBeforeLastSlash` |
| Paths.ResolveIncludePath | tasks/bake.js:181-185 | the include path resolution inside `parse`; see `Paths.AbsoluteIncludeUnderBase` and `Paths.RelativeIncludeBesideFile` |
| Paths.DirectoryIsBeforeLastSlash | tasks/bake.js:70-76 | `directory` is everything before the last `/` |
| Paths.DirectoryWithoutSlash | tasks/bake.js:70-76 | `directory` of a path without `/` is empty |
| Paths.DirectoryAndName | tasks/bake.js:70-76 | `directory` of a directory, `/` and a file name is the directory |
| Paths.AbsoluteIncludeUnderBase | tasks/bake.js:181-182 | an include starting with `/` is the base path followed by the rest, independent of the including file |
| Paths.RelativeIncludeBesideFile | tasks/bake.js:183-185 | a relative include from a file in a directory lands in that directory |
| Paths.RelativeIncludeFromBareName | tasks/bake.js:183-185 | a relative include from a file named without a directory resolves to `/` followed by the include path |
| Paths.NormalizeBasePath | tasks/bake.js:201-207 | the normalised base path is empty or ends in `/`; it extends the given one by at most that `/`, and equals it exactly when it already was empty or ended in `/` |
| Paths.NormalizeBasePathIdempotent | tasks/bake.js:201-207 | normalising twice changes nothing |
| Indent.ApplyIndent | tasks/bake.js:138-150 | `applyIndent`; see `Indent.ApplyIndentLines` and `Indent.StripApplyIndent` |
| Indent.ApplyIndentLines | tasks/bake.js:138-150 | indenting keeps the number of lines, and line i of the result is the indent followed by line i of the input |
| Indent.ApplyIndentChars | tasks/bake.js:138-150 | apart from line feeds, a character occurs in the indented text exactly when it occurs in the indent or in the text |
| Indent.StripApplyIndent | tasks/bake.js:138-150 | stripping the indent from every line of an indented text gives the text back |
| Indent.ApplyEmptyIndent | tasks/bake.js:139-141 | an empty indent leaves the text unchanged |
| Expander.Process | tasks/bake.js:161-163 | the processor run at the start of `parse`: none leaves the text as it is, the built-in one (the default at line 38) is `defaultProcess`, and a custom one is any function of text and data; see `Expander.ExpandPlainText` |
| Expander.Merge | tasks/bake.js:179 | every inline option overwrites its own key with a string; every other key keeps its value or stays absent |
| Expander.Gate | tasks/bake.js:169-177 | the directive is dropped exactly when `_if` is given and `hasValue` fails; otherwise `_if` is removed and every other option passes unchanged |
| Expander.Expand | tasks/bake.js:159-191 | a successful expansion removes no key from the data, and every key it adds or value it changes holds a string |
| Expander.ExpandSkipsLiteral | tasks/bake.js:165 | text where no directive starts is copied out, and expansion resumes after it with the same data |
| Expander.ExpandAfterDirective | tasks/bake.js:165-191 | a leading directive is replaced first; the rest is expanded with the data it left; a failure stops everything |
| Expander.ExpandWithoutDirectives | tasks/bake.js:165 | a processed text without directives is the output, and the data is unchanged |
| Expander.ExpandPlainText | tasks/bake.js:159-191 | text with neither `!` nor `{` expands to itself under the built-in processors, with the data unchanged |
| Expander.DirectiveStops | tasks/bake.js:169-187 | a directive whose gate fails, or whose file is missing, has the same outcome for every depth bound and every file system lacking that file, so nothing is read; it succeeds, with no text and the data untouched, exactly when the gate failed, and otherwise fails naming the resolved path |
| Expander.ExpandDirective | tasks/bake.js:166-190 | the replacement callback of `parse`: on success the data only gains keys or string values; see `Expander.DirectiveStops` and `Expander.OptionsMergeFirst` |
| Expander.OptionsMergeFirst | tasks/bake.js:167-190 | options other than `_if` act exactly as a merge into the data ahead of the same directive without options |
| Expander.ExpandFuelSettles | tasks/bake.js:159-191 | the depth bound is only a bound: once an expansion succeeds or fails on a missing file, more depth gives the same result |
| Expander.Bake | tasks/bake.js:201-207 | normalising the base path, then `parse` of the source file; see `Expander.BakeTrailingSlash` |
| Expander.BakeTrailingSlash | tasks/bake.js:201-207 | a base path given without its trailing `/` bakes exactly as with it |
| Scenarios.OptionReachesInclude | tasks/bake.js:161-190 | a file holding `{{key}}` included with `key="value"` expands to the value, and the data keeps the value |
| Scenarios.OptionHiddenFromIncludingText | tasks/bake.js:161-179 | a `{{key}}` after its own directive's `key="value"` is resolved before the merge, to nothing when the data lacks the key |
| Scenarios.OptionSeenByLaterSibling | tasks/bake.js:179-190 | a later sibling include holding `{{key}}` sees the value an earlier directive merged |
| Scenarios.NestedSetsOption | tasks/bake.js:179-190 | a file that is one directive with an option expands to its include and leaves the value in the data |
| Scenarios.OptionLeaksFromNestedInclude | tasks/bake.js:179-190 | an option merged inside a nested include is seen by a later sibling of the outer include |
| Scenarios.ConditionFailsDropsDirective | tasks/bake.js:169-174 | `_if` naming an absent or `false` key drops the directive: empty output, unchanged data, no file read |
| Scenarios.ConditionHoldsIncludes | tasks/bake.js:169-177 | `_if` naming a present, non-`false` key includes exactly as the directive without options; `_if` is never merged |
| Scenarios.IndentedInclude | tasks/bake.js:165-190 | a directive with an indent of spaces, `\|` and tabs and no options, including a plain file, is replaced by that file with the indent in front of every line, the first included; the indent before the directive is part of the match, so it appears once; the data is unchanged |
| Scenarios.IndentedToken | tasks/bake.js:186-190 | an included body is indented before it is processed: a file that is one `{{key}}` under an indent gives the indent followed by the value, so a value of several lines carries the indent on its first line only |
| Scenarios.IndentAfterwardsDiffers | tasks/bake.js:186-190 | that result differs from indenting the processed value whenever the value has a line feed and the indent is non-empty |
| Scenarios.IncludeHeader | tasks/bake.js:181-190 | including plain text around `{{key}}` gives the text around the key's value |
| Scenarios.IncludeWithPlaceholders | tasks/bake.js:159-191 | a directive followed by text and `{{key}}` gives the included header, the text and the value, in that order |

## Left out

- Task registration, `this.options`, the loop over `this.files`, `checkFile`, and reading or writing through `grunt.file` (lines 13, 35-40, 58-65, 211-235). This is host plumbing. `Expander.Bake` takes the source text, its path, the data and the files as parameters.
- Loading the content JSON and selecting a section (lines 218-227). These happen at the boundary, and an absent section leaves the data undefined, which the code does not handle. The data object is a parameter.
- Two JavaScript object quirks: an inline option key `__proto__` is not stored as an own property by the assignment at line 86, and a key `hasOwnProperty` merged into the data makes the later `current.hasOwnProperty(next)` calls at lines 103 and 125 throw. The model treats both as ordinary keys, because its data is a plain map without a prototype.
- Logging: the warning in `resolveName` and the errors of `checkFile` and the section check. They do not affect the result.
- Expander.Merge: lodash's deep `_.merge` is modelled as a key overwrite. Inline options are always flat maps of strings, and the model writes each one as a string over whatever its key held. The deep-merge rules for nested source objects are not modelled, because inline options never hold any.
- Data.ResolveNameMeaning and Data.HasValueMeaning: JSON arrays in the content data are not modelled; a value is a string, a boolean or an object, so a `{{list.0}}` that indexes an array in the source has no counterpart here. Walking into a string or a boolean counts as an absent segment, and there are no numbers or `null`. JavaScript's `hasOwnProperty` on a string intermediate would find properties such as indices and `length`, and `String(v)` of a number is not modelled.
- Expander.Expand: an include cycle recurses without bound in the source. The model bounds the include depth by `fuel` and reports `TooDeep` when it runs out. `Expander.ExpandFuelSettles` shows the bound changes no result that settles.
- Expander.Expand: the contract says added or changed values are strings, not that each string is the value of an inline option of some expanded directive. `Expander.Merge`, the only writer, does write option values, but the expansion does not record which directives it expanded, so the provenance is not stated.
- A missing include file is the failure `MissingFile`. In the source, `grunt.file.read` throws.
- Custom processors are any function from text and data to text. They cannot mutate the data object, which a JavaScript callback could.
- Strings are sequences of characters, not UTF-16 code units. A character outside the Basic Multilingual Plane, which JavaScript sees as two code units, is one character here.
- The regular-expression engine and the `lastIndex` state of the two global expressions are not modelled. Each grammar is a hand-written matcher. The directive matcher is proved to accept exactly the texts of a separate description, `Directives.Spell` over the whitespace layouts `Directives.ValidLayout` allows (`Directives.SpellRoundTrip`, `Directives.DirectiveAtSound`); that description is written to mirror the expression at line 48, and the agreement between them is by reading, not by proof. The attribute matcher is proved to read back rendered input (`InlineOptions.ParseRenderedAttrs`).

=== FILE: data.dfy ===
/**
 The data tree placeholders and `_if` conditions are resolved against, and the
 two dotted-name lookups over it (`resolveName` and `hasValue` in tasks/bake.js).
 */
module Data {
  import opened Optional
  import opened Strings

  /** A JSON-like value: a string, a boolean, or an object of named values. */
  datatype Value = Str(s: string) | Bool(b: bool) | Obj(fields: map<string, Value>)

  /** The root object that placeholders and `_if` conditions are looked up in. */
  type Scope = map<string, Value>

  /** JavaScript falsiness, restricted to the values a scope holds. */
  predicate Falsy(v: Value) {
    v == Str("") || v == Bool(false)
  }

  /** The text JavaScript's `String(v)` gives for a value that `replace` substitutes. */
  function Display(v: Value): string {
    match v
    case Str(s) => s
    case Bool(b) => if b then "true" else "false"
    case Obj(_) => "[object Object]"
  }

  /** Follows `path` one own property at a time; `None` as soon as a segment is absent. */
  function Walk(v: Value, path: seq<string>): Option<Value>
    decreases |path|
  {
    if |path| == 0 then Some(v)
    else match v
      case Obj(m) => if path[0] in m then Walk(m[path[0]], path[1..]) else None
      case _ => None
  }

  /** Reference definition of a walk: a chain of objects, each holding the next
      segment as an own property, from `v` to `w`. */
  ghost predicate IsChain(v: Value, path: seq<string>, chain: seq<Value>) {
    && |chain| == |path| + 1
    && chain[0] == v
    && forall i :: 0 <= i < |path| ==>
         chain[i].Obj? && path[i] in chain[i].fields && chain[i + 1] == chain[i].fields[path[i]]
  }

  ghost predicate Reaches(v: Value, path: seq<string>, w: Value) {
    exists chain :: IsChain(v, path, chain) && chain[|path|] == w
  }

  /** The walk finds `w` exactly when a chain of own properties leads to `w`. */
  lemma WalkReaches(v: Value, path: seq<string>, w: Value)
    ensures Walk(v, path) == Some(w) <==> Reaches(v, path, w)
  {
    if Walk(v, path) == Some(w) {
      WalkGivesChain(v, path, w);
    }
    if Reaches(v, path, w) {
      var chain: seq<Value> :| IsChain(v, path, chain) && chain[|path|] == w;
      ChainGivesWalk(v, path, chain);
    }
  }

  lemma {:induction false} WalkGivesChain(v: Value, path: seq<string>, w: Value)
    requires Walk(v, path) == Some(w)
    ensures Reaches(v, path, w)
    decreases |path|
  {
    if |path| == 0 {
      assert IsChain(v, path, [v]);
    } else {
      var next := v.fields[path[0]];
      WalkGivesChain(next, path[1..], w);
      var chain': seq<Value> :| IsChain(next, path[1..], chain') && chain'[|path| - 1] == w;
      var chain := [v] + chain';
      forall i | 0 <= i < |path|
        ensures chain[i].Obj? && path[i] in chain[i].fields && chain[i + 1] == chain[i].fields[path[i]]
      {
        if i > 0 {
          assert chain[i] == chain'[i - 1] && chain[i + 1] == chain'[i] && path[i] == path[1..][i - 1];
        }
      }
      assert IsChain(v, path, chain);
    }
  }

  lemma {:induction false} ChainGivesWalk(v: Value, path: seq<string>, chain: seq<Value>)
    requires IsChain(v, path, chain)
    ensures Walk(v, path) == Some(chain[|path|])
    decreases |path|
  {
    if |path| > 0 {
      assert chain[0].Obj? && path[0] in chain[0].fields;
      var next := v.fields[path[0]];
      var chain' := chain[1..];
      forall i | 0 <= i < |path[1..]|
        ensures chain'[i].Obj? && path[1..][i] in chain'[i].fields
                && chain'[i + 1] == chain'[i].fields[path[1..][i]]
      {
        assert chain'[i] == chain[i + 1] && chain'[i + 1] == chain[i + 2] && path[1..][i] == path[i + 1];
      }
      assert IsChain(next, path[1..], chain');
      ChainGivesWalk(next, path[1..], chain');
    }
  }

  /** `resolveName`: the text a `{{name}}` placeholder is replaced by. */
  function ResolveName(name: string, scope: Scope): string {
    match Walk(Obj(scope), Split(name, '.'))
    case None => ""
    case Some(v) => if Falsy(v) then "" else Display(v)
  }

  /** `hasValue`: whether an `_if` condition lets its directive through. */
  function HasValue(name: string, scope: Scope): bool {
    match Walk(Obj(scope), Split(name, '.'))
    case None => false
    case Some(v) => v != Bool(false)
  }

  /** `resolveName` in terms of the reference walk: the display text of the value
      reached when it is truthy, and the empty string when no value is reached or
      the value is falsy. */
  lemma ResolveNameMeaning(name: string, scope: Scope)
    ensures forall w :: Reaches(Obj(scope), Split(name, '.'), w) ==>
              ResolveName(name, scope) == if Falsy(w) then "" else Display(w)
    ensures (forall w :: !Reaches(Obj(scope), Split(name, '.'), w)) ==> ResolveName(name, scope) == ""
  {
    var path := Split(name, '.');
    forall w | Reaches(Obj(scope), path, w)
      ensures ResolveName(name, scope) == if Falsy(w) then "" else Display(w)
    {
      WalkReaches(Obj(scope), path, w);
    }
    if Walk(Obj(scope), path).Some? {
      WalkReaches(Obj(scope), path, Walk(Obj(scope), path).value);
    }
  }

  /** `hasValue` holds exactly when some value other than `false` is reached; an
      empty string or an object counts as present. */
  lemma HasValueMeaning(name: string, scope: Scope)
    ensures HasValue(name, scope) <==>
            exists w :: Reaches(Obj(scope), Split(name, '.'), w) && w != Bool(false)
  {
    var path := Split(name, '.');
    if HasValue(name, scope) {
      var w := Walk(Obj(scope), path).value;
      WalkReaches(Obj(scope), path, w);
      assert Reaches(Obj(scope), path, w) && w != Bool(false);
      assert exists w' :: Reaches(Obj(scope), Split(name, '.'), w') && w' != Bool(false);
    } else if exists w :: Reaches(Obj(scope), path, w) && w != Bool(false) {
      var w :| Reaches(Obj(scope), path, w) && w != Bool(false);
      WalkReaches(Obj(scope), path, w);
      assert false;
    }
  }

  /** A placeholder renders non-empty text only for a name `_if` would accept. */
  lemma ResolvedImpliesHasValue(name: string, scope: Scope)
    ensures ResolveName(name, scope) != "" ==> HasValue(name, scope)
    ensures !HasValue(name, scope) ==> ResolveName(name, scope) == ""
  {
  }

  /** A single-segment name is a plain own-property lookup in the scope. */
  lemma ResolveTopLevel(name: string, scope: Scope)
    requires '.' !in name
    ensures ResolveName(name, scope) ==
            if name in scope && !Falsy(scope[name]) then Display(scope[name]) else ""
    ensures HasValue(name, scope) <==> name in scope && scope[name] != Bool(false)
  {
    SplitWithoutSeparator(name, '.');
    assert [name][1..] == [];
    if name in scope {
      assert Walk(Obj(scope), [name]) == Walk(scope[name], []) == Some(scope[name]);
    } else {
      assert Walk(Obj(scope), [name]) == None;
    }
  }
}

=== FILE: directives.dfy ===
/**
 The include-directive grammar of tasks/bake.js line 48:
   indent `[ |\t]*`, then `<!--(`, an optional whitespace character, `bake`,
   whitespace, a path `[\w/.\-]+`, an optional whitespace character, the
   attribute text `[^>]*`, and `)-->`.
 Every greedy choice of that expression is final: a shorter choice can never
 let the rest match when the longest one does not, so the matcher takes each
 run at its longest. Each stage below matches one grammar element at the
 start of the remaining text and reports how much it consumed.
 */
module Directives {
  import opened Optional
  import opened Strings
  import opened Scanner

  /** One include directive: its indent, raw path and raw attribute text. */
  datatype Directive = Directive(indent: string, path: string, attributes: string)

  /** The indent class `[ |\t]`: space, vertical bar and tab. */
  predicate IsIndentChar(c: char) {
    c == ' ' || c == '|' || c == '\t'
  }

  /** The path class `[\w\/.\-]`. */
  predicate IsPathChar(c: char) {
    IsWordChar(c) || c == '/' || c == '.' || c == '-'
  }

  /** The attribute class `[^>]`. */
  predicate IsAttributeChar(c: char) {
    c != '>'
  }

  /** A path as the grammar's path run `[\w\/.\-]+` matches it. */
  predicate IsPath(path: string) {
    |path| > 0 && forall x :: 0 <= x < |path| ==> IsPathChar(path[x])
  }

  /** What every recognised directive satisfies. */
  predicate WellFormed(d: Directive) {
    && (forall i :: 0 <= i < |d.indent| ==> IsIndentChar(d.indent[i]))
    && IsPath(d.path)
    && '>' !in d.attributes
  }

  predicate StartsWith(r: string, lit: string) {
    |lit| <= |r| && r[..|lit|] == lit
  }

  /** A stage's match, moved past `n` characters consumed before it. */
  function Shift<T>(m: Option<Match<T>>, n: nat): (r: Option<Match<T>>)
    ensures r.Some? <==> m.Some?
    ensures r.Some? ==> r.value.value == m.value.value && r.value.len == m.value.len + n
  {
    match m
    case None => None
    case Some(x) => Some(Match(x.value, x.len + n))
  }

  /** The whole directive at the start of `s`: the indent run, then the rest. */
  function DirectiveAt(s: string): (r: Option<Match<Directive>>)
    ensures r.Some? ==> WellFormed(r.value.value) && 0 < r.value.len <= |s|
    ensures r.Some? ==> |r.value.value.indent| + 5 < r.value.len
    ensures r.Some? ==> s[..|r.value.value.indent|] == r.value.value.indent
    ensures r.Some? ==> s[|r.value.value.indent| + 1] == '!'
  {
    var i := SpanLen(s, IsIndentChar);
    match Opening(s[i..])
    case None => None
    case Some(m) =>
      assert s[i + 1] == s[i..][1];
      Some(Match(Directive(s[..i], m.value.0, m.value.1), i + m.len))
  }

  /** `<!--(` and the optional whitespace character after it. */
  function Opening(r: string): (o: Option<Match<(string, string)>>)
    ensures o.Some? ==> 5 < o.value.len <= |r| && r[1] == '!'
    ensures o.Some? ==> IsPath(o.value.value.0)
    ensures o.Some? ==> '>' !in o.value.value.1
  {
    if !StartsWith(r, "<!--(") then None
    else
      assert r[1] == r[..5][1];
      if |r| > 5 && IsSpace(r[5]) then Shift(Keyword(r[6..]), 6)
      else Shift(Keyword(r[5..]), 5)
  }

  /** `bake`, then a non-empty whitespace run. */
  function Keyword(r: string): (o: Option<Match<(string, string)>>)
    ensures o.Some? ==> 0 < o.value.len <= |r|
    ensures o.Some? ==> IsPath(o.value.value.0)
    ensures o.Some? ==> '>' !in o.value.value.1
  {
    if !StartsWith(r, "bake") then None
    else
      var w := SpanLen(r[4..], IsSpace);
      if w == 0 then None else Shift(PathPart(r[4 + w..]), 4 + w)
  }

  /** The path run, then the optional whitespace character and the rest. */
  function PathPart(r: string): (o: Option<Match<(string, string)>>)
    ensures o.Some? ==> 0 < o.value.len <= |r|
    ensures o.Some? ==> IsPath(o.value.value.0)
    ensures o.Some? ==> '>' !in o.value.value.1
  {
    var m := SpanLen(r, IsPathChar);
    if m == 0 then None
    else
      match AfterPath(r[m..])
      case None => None
      case Some(c) => Some(Match((r[..m], c.value), m + c.len))
  }

  /** After the path: an optional whitespace character, then the closing stage. */
  function AfterPath(t: string): (o: Option<Match<string>>)
    ensures o.Some? ==> 0 < o.value.len <= |t|
    ensures o.Some? ==> '>' !in o.value.value
  {
    if |t| > 0 && IsSpace(t[0]) then Shift(Closing(t[1..]), 1) else Closing(t)
  }

  /** The attribute run, which must end in `)--` right before the first `>`. */
  function Closing(r: string): (o: Option<Match<string>>)
    ensures o.Some? ==> 0 < o.value.len <= |r|
    ensures o.Some? ==> '>' !in o.value.value
  {
    var q := SpanLen(r, IsAttributeChar);
    if q < |r| && 3 <= q && r[q - 3..q] == ")--" then
      assert forall x :: 0 <= x < q - 3 ==> r[..q - 3][x] == r[x];
      Some(Match(r[..q - 3], q + 1))
    else None
  }

  /** Nothing, or one whitespace character: the grammar's `\s?`. */
  predicate OptionalSpace(w: string) {
    |w| <= 1 && forall i :: 0 <= i < |w| ==> IsSpace(w[i])
  }

  /** A non-empty whitespace run: the grammar's `\s+`. */
  predicate SpaceRun(w: string) {
    |w| > 0 && forall i :: 0 <= i < |w| ==> IsSpace(w[i])
  }

  /** The whitespace of a directive's text: after `<!--(`, after `bake` and after the path. */
  datatype Layout = Layout(afterOpen: string, afterKeyword: string, afterPath: string)

  predicate ValidLayout(lay: Layout) {
    OptionalSpace(lay.afterOpen) && SpaceRun(lay.afterKeyword) && OptionalSpace(lay.afterPath)
  }

  /** With nothing between path and attributes, the attributes cannot start with
      a path character (the path would take it) or with whitespace (the optional
      whitespace would take it). */
  predicate Unambiguous(d: Directive, lay: Layout) {
    lay.afterPath == "" && |d.attributes| > 0 ==> !IsPathChar(d.attributes[0]) && !IsSpace(d.attributes[0])
  }

  /** A directive written out with the given whitespace. */
  function Spell(d: Directive, lay: Layout): string {
    d.indent + OpeningText(lay, d.path, d.attributes)
  }

  /** The text from `<!--(` on. */
  function OpeningText(lay: Layout, path: string, attributes: string): string {
    "<!--(" + (lay.afterOpen + KeywordText(lay.afterKeyword, path, lay.afterPath, attributes))
  }

  /** The text from `bake` on. */
  function KeywordText(ws: string, path: string, w: string, attributes: string): string {
    "bake" + (ws + PathText(path, w, attributes))
  }

  /** The text from the path on. */
  function PathText(path: string, w: string, attributes: string): string {
    path + (w + (attributes + ")-->"))
  }

  /** The canonical text of a directive: one space after `bake`, and one before
      the attributes when there are any. */
  function Render(d: Directive): string {
    d.indent + "<!--(bake " + d.path + AttributeText(d.attributes) + ")-->"
  }

  /** The attribute text as rendered: nothing, or a space and the attributes. */
  function AttributeText(attributes: string): string {
    if |attributes| == 0 then "" else " " + attributes
  }

  /** The layout `Render` uses. */
  function CanonicalLayout(d: Directive): Layout {
    Layout("", " ", if |d.attributes| == 0 then "" else " ")
  }

  lemma RenderIsSpell(d: Directive)
    ensures Render(d) == Spell(d, CanonicalLayout(d))
  {
    var lay := CanonicalLayout(d);
    assert AttributeText(d.attributes) == lay.afterPath + d.attributes;
  }

  /** A path character is never whitespace, so the whitespace run stops at the path. */
  lemma PathCharNotSpace(c: char)
    requires IsPathChar(c)
    ensures !IsSpace(c)
  {
  }

  lemma StartsWithLiteral(lit: string, t: string)
    ensures StartsWith(lit + t, lit) && (lit + t)[|lit|..] == t
  {
    SplitAt(lit, t);
  }

  /** The attribute stage stops at the first `>`, which closes `)-->`. */
  lemma ClosingOf(attributes: string, rest: string)
    requires '>' !in attributes
    ensures Matched(Closing(attributes + (")-->" + rest)), attributes, |attributes| + 4)
  {
    var r := attributes + (")-->" + rest);
    var x := attributes + ")--";
    assert r == x + (">" + rest);
    assert forall i :: 0 <= i < |x| ==> x[i] != '>' by {
      assert forall i :: 0 <= i < |attributes| ==> attributes[i] in attributes;
    }
    RunThenStop(x, ">" + rest, IsAttributeChar);
    SplitAt(x, ">" + rest);
    SplitAt(attributes, ")--");
  }

  /** The optional whitespace after the path, then the attributes and `)-->`. */
  lemma AfterPathWith(w: string, attributes: string, rest: string)
    requires OptionalSpace(w) && '>' !in attributes
    requires w == "" && |attributes| > 0 ==> !IsSpace(attributes[0])
    ensures Matched(AfterPath(w + (attributes + (")-->" + rest))), attributes, |w| + |attributes| + 4)
  {
    var u := attributes + (")-->" + rest);
    ClosingOf(attributes, rest);
    if |w| == 1 {
      AfterPathSpace(w, u);
    } else {
      AfterPathNoSpace(w, u);
    }
  }

  lemma AfterPathSpace(w: string, u: string)
    requires |w| == 1 && IsSpace(w[0])
    ensures AfterPath(w + u) == Shift(Closing(u), 1)
  {
    SplitAt(w, u);
  }

  lemma AfterPathNoSpace(w: string, u: string)
    requires |w| == 0 && (|u| == 0 || !IsSpace(u[0]))
    ensures AfterPath(w + u) == Closing(u)
  {
    assert w + u == u;
  }

  /** The path stage takes the whole path, then what follows it. */
  lemma PathPartWith(path: string, w: string, attributes: string, rest: string)
    requires IsPath(path)
    requires OptionalSpace(w) && '>' !in attributes
    requires w == "" && |attributes| > 0 ==> !IsPathChar(attributes[0]) && !IsSpace(attributes[0])
    ensures Matched(PathPart(path + (w + (attributes + (")-->" + rest)))), (path, attributes), |path| + |w| + |attributes| + 4)
  {
    var t := w + (attributes + (")-->" + rest));
    AfterPathWith(w, attributes, rest);
    StopAfterPath(w, attributes, rest);
    RunThenStop(path, t, IsPathChar);
    SplitAt(path, t);
  }

  /** What follows the path does not start with a path character. */
  lemma StopAfterPath(w: string, attributes: string, rest: string)
    requires OptionalSpace(w)
    requires w == "" && |attributes| > 0 ==> !IsPathChar(attributes[0])
    ensures var t := w + (attributes + (")-->" + rest)); |t| > 0 && !IsPathChar(t[0])
  {
    var u := attributes + (")-->" + rest);
    if |w| == 1 {
      assert (w + u)[0] == w[0];
    } else {
      assert w + u == u;
      assert u[0] == if |attributes| > 0 then attributes[0] else ')';
    }
  }

  /** `bake` and a whitespace run, then whatever the path stage matches. */
  lemma KeywordWith(ws: string, t: string, v: (string, string), n: nat)
    requires SpaceRun(ws) && |t| > 0 && !IsSpace(t[0])
    requires Matched(PathPart(t), v, n)
    ensures Matched(Keyword("bake" + (ws + t)), v, 4 + |ws| + n)
  {
    StartsWithLiteral("bake", ws + t);
    RunThenStop(ws, t, IsSpace);
    SplitAt(ws, t);
  }

  /** `<!--(` and the optional whitespace, then whatever the keyword stage matches. */
  lemma OpeningWith(w: string, t: string, v: (string, string), n: nat)
    requires OptionalSpace(w) && |t| > 0 && t[0] == 'b'
    requires Matched(Keyword(t), v, n)
    ensures Matched(Opening("<!--(" + (w + t)), v, 5 + |w| + n)
  {
    if |w| == 1 {
      OpeningSpace(w, t);
    } else {
      OpeningNoSpace(w, t);
    }
  }

  lemma OpeningSpace(w: string, t: string)
    requires |w| == 1 && IsSpace(w[0])
    ensures Opening("<!--(" + (w + t)) == Shift(Keyword(t), 6)
  {
    var r := "<!--(" + (w + t);
    StartsWithLiteral("<!--(", w + t);
    assert r[5] == w[0] && r[6..] == t;
  }

  lemma OpeningNoSpace(w: string, t: string)
    requires |w| == 0 && |t| > 0 && t[0] == 'b'
    ensures Opening("<!--(" + (w + t)) == Shift(Keyword(t), 5)
  {
    assert w + t == t;
    StartsWithLiteral("<!--(", t);
  }

  /** The indent run, then whatever the stages after it match. */
  lemma DirectiveAtOf(indent: string, t: string, v: (string, string), n: nat)
    requires forall x :: 0 <= x < |indent| ==> IsIndentChar(indent[x])
    requires |t| > 0 && t[0] == '<' && Matched(Opening(t), v, n)
    ensures Matched(DirectiveAt(indent + t), Directive(indent, v.0, v.1), |indent| + n)
  {
    RunThenStop(indent, t, IsIndentChar);
    SplitAt(indent, t);
  }

  /** `Spell` regrouped so that each stage's input is a suffix. */
  lemma SpellParts(d: Directive, lay: Layout, rest: string)
    ensures Spell(d, lay) + rest
         == d.indent + ("<!--(" + (lay.afterOpen + ("bake" + (lay.afterKeyword + (d.path + (lay.afterPath + (d.attributes + (")-->" + rest))))))))
    ensures |Spell(d, lay)| == |d.indent| + 5 + |lay.afterOpen| + 4 + |lay.afterKeyword| + |d.path| + |lay.afterPath| + |d.attributes| + 4
  {
  }

  /** A well-formed directive spelled with any whitespace the grammar allows is
      recognised as itself, spanning exactly its text, whatever follows. */
  lemma SpellRoundTrip(d: Directive, lay: Layout, rest: string)
    requires WellFormed(d) && ValidLayout(lay) && Unambiguous(d, lay)
    ensures Matched(DirectiveAt(Spell(d, lay) + rest), d, |Spell(d, lay)|)
  {
    StagesRoundTrip(d, lay, rest);
    SpellParts(d, lay, rest);
  }

  /** The stages one after another over the regrouped text. */
  lemma StagesRoundTrip(d: Directive, lay: Layout, rest: string)
    requires WellFormed(d) && ValidLayout(lay) && Unambiguous(d, lay)
    ensures Matched(DirectiveAt(d.indent + ("<!--(" + (lay.afterOpen + ("bake" + (lay.afterKeyword + (d.path + (lay.afterPath + (d.attributes + (")-->" + rest))))))))),
                    d, |d.indent| + 5 + |lay.afterOpen| + 4 + |lay.afterKeyword| + |d.path| + |lay.afterPath| + |d.attributes| + 4)
  {
    var t1 := "bake" + (lay.afterKeyword + (d.path + (lay.afterPath + (d.attributes + (")-->" + rest)))));
    var n := 4 + |lay.afterKeyword| + |d.path| + |lay.afterPath| + |d.attributes| + 4;
    KeywordRoundTrip(d, lay, rest);
    OpeningWith(lay.afterOpen, t1, (d.path, d.attributes), n);
    DirectiveAtOf(d.indent, "<!--(" + (lay.afterOpen + t1), (d.path, d.attributes), 5 + |lay.afterOpen| + n);
  }

  /** The keyword and path stages over the text from `bake` on. */
  lemma KeywordRoundTrip(d: Directive, lay: Layout, rest: string)
    requires WellFormed(d) && ValidLayout(lay) && Unambiguous(d, lay)
    ensures Matched(Keyword("bake" + (lay.afterKeyword + (d.path + (lay.afterPath + (d.attributes + (")-->" + rest)))))),
                    (d.path, d.attributes), 4 + |lay.afterKeyword| + |d.path| + |lay.afterPath| + |d.attributes| + 4)
  {
    var t2 := d.path + (lay.afterPath + (d.attributes + (")-->" + rest)));
    PathPartWith(d.path, lay.afterPath, d.attributes, rest);
    assert t2[0] == d.path[0];
    PathCharNotSpace(t2[0]);
    KeywordWith(lay.afterKeyword, t2, (d.path, d.attributes), |d.path| + |lay.afterPath| + |d.attributes| + 4);
  }

  /** Rendering a well-formed directive and matching the text gives it back. */
  lemma RenderRoundTrip(d: Directive, rest: string)
    requires WellFormed(d)
    ensures Matched(DirectiveAt(Render(d) + rest), d, |Render(d)|)
  {
    RenderIsSpell(d);
    SpellRoundTrip(d, CanonicalLayout(d), rest);
  }

  /** The attribute stage's match is the attributes and `)-->`. */
  lemma ClosingShape(r: string)
    requires Closing(r).Some?
    ensures var m := Closing(r).value;
      m.len == |m.value| + 4 && r[..m.len] == m.value + ")-->"
  {
    var q := SpanLen(r, IsAttributeChar);
    assert r[q] == '>';
    TakeSnoc(r, q + 1);
    TakeSplit(r, q - 3, q);
    assert r[q - 3..][..3] == ")--";
  }

  /** What the stage after the path matched: optional whitespace, the
      attributes and `)-->`; with no whitespace, the text does not start with
      whitespace. */
  lemma AfterPathShape(t: string) returns (w: string)
    requires AfterPath(t).Some?
    ensures var m := AfterPath(t).value;
      && OptionalSpace(w) && m.len == |w| + |m.value| + 4
      && t[..m.len] == w + (m.value + ")-->")
      && (w == "" ==> !IsSpace(t[0]))
  {
    if IsSpace(t[0]) {
      w := [t[0]];
      ClosingShape(t[1..]);
      TakeSplit(t, 1, AfterPath(t).value.len);
    } else {
      w := "";
      ClosingShape(t);
    }
  }

  /** What the path stage matched: the path, optional whitespace, the
      attributes and `)-->`, split without ambiguity. */
  lemma PathPartShape(r: string) returns (w: string)
    requires PathPart(r).Some?
    ensures var m := PathPart(r).value;
      && OptionalSpace(w) && m.len == |m.value.0| + |w| + |m.value.1| + 4
      && r[..m.len] == PathText(m.value.0, w, m.value.1)
      && (w == "" && |m.value.1| > 0 ==> !IsPathChar(m.value.1[0]) && !IsSpace(m.value.1[0]))
  {
    var k := SpanLen(r, IsPathChar);
    w := AfterPathShape(r[k..]);
    TakeSplit(r, k, PathPart(r).value.len);
  }

  /** What the keyword stage matched: `bake`, a whitespace run, and what the
      path stage matched. */
  lemma KeywordShape(r: string) returns (ws: string, w: string)
    requires Keyword(r).Some?
    ensures var m := Keyword(r).value;
      && SpaceRun(ws) && OptionalSpace(w)
      && r[..m.len] == KeywordText(ws, m.value.0, w, m.value.1)
      && (w == "" && |m.value.1| > 0 ==> !IsPathChar(m.value.1[0]) && !IsSpace(m.value.1[0]))
  {
    var k := KeywordSplit(r);
    ws := r[4..][..k - 4];
    SpaceRunPrefix(r[4..], k - 4);
    var t := r[k..];
    w := PathPartShape(t);
    var m := PathPart(t).value;
    KeywordPrefix(r, k, m.len, ws, m.value.0, w, m.value.1);
  }

  /** Where the keyword stage hands over to the path stage. */
  lemma KeywordSplit(r: string) returns (k: nat)
    requires Keyword(r).Some?
    ensures StartsWith(r, "bake") && 4 < k <= |r| && k - 4 == SpanLen(r[4..], IsSpace)
    ensures Keyword(r) == Shift(PathPart(r[k..]), k) && PathPart(r[k..]).Some?
  {
    k := 4 + SpanLen(r[4..], IsSpace);
  }

  /** The whitespace a greedy `\s+` consumed. */
  lemma SpaceRunPrefix(u: string, n: nat)
    requires n == SpanLen(u, IsSpace) && n > 0
    ensures SpaceRun(u[..n])
  {
    forall i | 0 <= i < n ensures IsSpace(u[..n][i]) {
      assert u[..n][i] == u[i];
    }
  }

  /** `bake`, the whitespace up to `k` and the path stage's text. */
  lemma KeywordPrefix(r: string, k: nat, n: nat, ws: string, path: string, w: string, attributes: string)
    requires StartsWith(r, "bake") && 4 <= k && k + n <= |r| && ws == r[4..][..k - 4]
    requires r[k..][..n] == PathText(path, w, attributes)
    ensures r[..k + n] == KeywordText(ws, path, w, attributes)
  {
    TakeSplit(r, k, k + n);
    TakeSplit(r, 4, k);
  }

  /** What the opening stage matched when it handed over at `o`: `<!--(`,
      the optional whitespace, and what the keyword stage matched. */
  lemma OpeningShape(r: string, o: nat) returns (lay: Layout)
    requires StartsWith(r, "<!--(") && 5 <= o <= |r| && OptionalSpace(r[5..o])
    requires Keyword(r[o..]).Some?
    ensures var m := Keyword(r[o..]).value;
      && ValidLayout(lay) && o + m.len <= |r|
      && r[..o + m.len] == OpeningText(lay, m.value.0, m.value.1)
      && (lay.afterPath == "" && |m.value.1| > 0 ==> !IsPathChar(m.value.1[0]) && !IsSpace(m.value.1[0]))
  {
    var t := r[o..];
    var ws, w := KeywordShape(t);
    lay := Layout(r[5..o], ws, w);
    var m := Keyword(t).value;
    OpeningPrefix(r, o, m.len, lay, m.value.0, m.value.1);
  }

  /** What the opening stage matched: `<!--(`, the optional whitespace, and
      what the keyword stage matched. */
  lemma OpeningAtShape(r: string) returns (lay: Layout)
    requires Opening(r).Some?
    ensures var m := Opening(r).value;
      && ValidLayout(lay) && m.len <= |r|
      && r[..m.len] == OpeningText(lay, m.value.0, m.value.1)
      && (lay.afterPath == "" && |m.value.1| > 0 ==> !IsPathChar(m.value.1[0]) && !IsSpace(m.value.1[0]))
  {
    var o := OpeningSplit(r);
    lay := OpeningShape(r, o);
  }

  /** Where the opening stage hands over to the keyword stage. */
  lemma OpeningSplit(r: string) returns (o: nat)
    requires Opening(r).Some?
    ensures StartsWith(r, "<!--(") && 5 <= o <= |r| && OptionalSpace(r[5..o])
    ensures Opening(r) == Shift(Keyword(r[o..]), o) && Keyword(r[o..]).Some?
  {
    o := if |r| > 5 && IsSpace(r[5]) then 6 else 5;
    if o == 6 {
      assert r[5..o][0] == r[5];
    }
  }

  /** `<!--(`, the whitespace up to `o` and the keyword stage's text. */
  lemma OpeningPrefix(r: string, o: nat, n: nat, lay: Layout, path: string, attributes: string)
    requires StartsWith(r, "<!--(") && 5 <= o && o + n <= |r| && r[5..o] == lay.afterOpen
    requires r[o..][..n] == KeywordText(lay.afterKeyword, path, lay.afterPath, attributes)
    ensures r[..o + n] == OpeningText(lay, path, attributes)
  {
    TakeSplit(r, o, o + n);
    TakeSplit(r, 5, o);
  }

  /** A match spells its directive with some layout. */
  lemma DirectiveAtShape(s: string) returns (lay: Layout)
    requires DirectiveAt(s).Some?
    ensures var m := DirectiveAt(s).value;
      ValidLayout(lay) && Unambiguous(m.value, lay) && s[..m.len] == Spell(m.value, lay)
  {
    var i := DirectiveSplit(s);
    var t := s[i..];
    lay := OpeningAtShape(t);
    var m := Opening(t).value;
    var d := Directive(s[..i], m.value.0, m.value.1);
    SpellPrefix(s, i, m.len, d, lay);
  }

  /** The indent up to `i` and the opening stage's text spell the directive. */
  lemma SpellPrefix(s: string, i: nat, n: nat, d: Directive, lay: Layout)
    requires i + n <= |s| && s[..i] == d.indent
    requires s[i..][..n] == OpeningText(lay, d.path, d.attributes)
    ensures s[..i + n] == Spell(d, lay)
  {
    TakeSplit(s, i, i + n);
  }

  /** Where the indent run hands over to the opening stage. */
  lemma DirectiveSplit(s: string) returns (i: nat)
    requires DirectiveAt(s).Some?
    ensures i <= |s| && Opening(s[i..]).Some?
    ensures var m := Opening(s[i..]).value;
      DirectiveAt(s).value == Match(Directive(s[..i], m.value.0, m.value.1), i + m.len)
  {
    i := SpanLen(s, IsIndentChar);
  }

  /** Every text the matcher accepts is a well-formed directive spelled with
      whitespace the grammar allows; with `SpellRoundTrip`, the matched texts
      are exactly the spellings of well-formed directives. */
  lemma DirectiveAtSound(s: string)
    ensures DirectiveAt(s).Some? ==>
      var m := DirectiveAt(s).value;
      WellFormed(m.value) && exists lay :: ValidLayout(lay) && Unambiguous(m.value, lay) && s[..m.len] == Spell(m.value, lay)
  {
    if DirectiveAt(s).Some? {
      var lay := DirectiveAtShape(s);
    }
  }

  /** Every directive contains `<!--(`, so text without `!` holds none. */
  lemma NoBangNoDirective(t: string)
    requires '!' !in t
    ensures forall j :: 0 <= j < |t| ==> DirectiveAt(t[j..]).None?
  {
  }
}

=== FILE: expander.dfy ===
/**
 The recursive expansion of tasks/bake.js lines 159-191 (`parse`) and the task
 entry that normalises the base path first (lines 201-207).

 `parse` runs the processor over the whole text, collects every directive match
 of the processed text, and then calls the replacement for each match from
 left to right. The replacement parses the inline options, drops the directive
 when its `_if` condition fails, merges the remaining options into the ONE
 shared data object, reads the include, indents it and expands it recursively.
 Because the data object is shared and mutated, a merge stays visible to every
 later directive, at this level and above it; the model threads the data
 through the expansion and returns it with the text.

 The source has no cycle detection: an include cycle recurses until the stack
 overflows. The model bounds the include depth by `fuel`.
 */
module Expander {
  import opened Optional
  import opened Strings
  import opened Scanner
  import opened Data
  import opened Placeholders
  import opened Directives
  import opened InlineOptions
  import opened Paths
  import opened Indent

  /** The `process` option: not a function, the default processor, or a custom one. */
  datatype Processor =
    | NoProcessor
    | DefaultProcessor
    | CustomProcessor(f: (string, Scope) -> string)

  datatype Config = Config(basePath: string, process: Processor)

  /** The files an include can read, by path. */
  type FileSystem = map<string, string>

  datatype BakeError =
    | MissingFile(path: string)     // `grunt.file.read` throws
    | TooDeep(path: string)         // the include depth exceeds the fuel

  datatype Result<T> = Success(value: T) | Failure(error: BakeError)

  /** Expanded text and the data object as the expansion left it. */
  datatype Expansion = Expansion(text: string, scope: Scope)

  /** Keys are never removed, and every added or changed value is a string. */
  ghost predicate Extends(before: Scope, after: Scope) {
    && (forall k :: k in before ==> k in after)
    && (forall k :: k in after ==> (k in before && after[k] == before[k]) || after[k].Str?)
  }

  /** The processor run over a text at the start of `parse`. */
  function Process(cfg: Config, text: string, scope: Scope): string {
    match cfg.process
    case NoProcessor => text
    case DefaultProcessor => DefaultProcess(text, scope)
    case CustomProcessor(f) => f(text, scope)
  }

  /** `_.merge(values, inlineOptions)`: every option becomes a string property,
      overwriting what was there; all other properties stay. */
  function Merge(scope: Scope, opts: Options): (r: Scope)
    ensures forall k :: k in opts ==> k in r && r[k] == Str(opts[k])
    ensures forall k :: k !in opts ==> (k in r <==> k in scope) && (k in scope ==> r[k] == scope[k])
  {
    scope + map k | k in opts :: Str(opts[k])
  }

  lemma MergeOne(scope: Scope, key: string, value: string)
    ensures Merge(scope, map[key := value]) == scope[key := Str(value)]
  {
  }

  lemma MergeNothing(scope: Scope)
    ensures Merge(scope, map[]) == scope
  {
  }

  /** The `_if` option: `None` drops the directive, otherwise the options
      without `_if` go on to be merged. */
  function Gate(opts: Options, scope: Scope): (r: Option<Options>)
    ensures r.None? <==> "_if" in opts && !HasValue(opts["_if"], scope)
    ensures r.Some? ==> "_if" !in r.value && forall k :: k in opts && k != "_if" ==> k in r.value && r.value[k] == opts[k]
    ensures r.Some? ==> forall k :: k in r.value ==> k in opts
  {
    if "_if" in opts then
      if !HasValue(opts["_if"], scope) then None else Some(opts - {"_if"})
    else Some(opts)
  }

  /** `parse`: process the text, then expand every directive of the result. */
  function Expand(fuel: nat, text: string, filePath: string, scope: Scope, cfg: Config, fs: FileSystem): (r: Result<Expansion>)
    ensures r.Success? ==> Extends(scope, r.value.scope)
    decreases fuel, 2
  {
    ExpandProcessed(fuel, Process(cfg, text, scope), filePath, scope, cfg, fs)
  }

  /** The directive replacements over an already processed text. */
  function ExpandProcessed(fuel: nat, processed: string, filePath: string, scope: Scope, cfg: Config, fs: FileSystem): (r: Result<Expansion>)
    ensures r.Success? ==> Extends(scope, r.value.scope)
    decreases fuel, 1, |processed|
  {
    ExpandPieces(fuel, Scan(DirectiveAt, processed), filePath, scope, cfg, fs)
  }

  /** The pieces of a scan expanded from left to right, each directive seeing
      the data object as the directives before it left it. */
  function ExpandPieces(fuel: nat, ps: seq<Piece<Directive>>, filePath: string, scope: Scope, cfg: Config, fs: FileSystem): (r: Result<Expansion>)
    ensures r.Success? ==> Extends(scope, r.value.scope)
    decreases fuel, 1, 0, |ps|
  {
    if |ps| == 0 then Success(Expansion("", scope))
    else
      var head := match ps[0]
        case Text(t) => Success(Expansion(t, scope))
        case Hit(d, _) => ExpandDirective(fuel, d, filePath, scope, cfg, fs);
      match head
      case Failure(e) => Failure(e)
      case Success(h) =>
        match ExpandPieces(fuel, ps[1..], filePath, h.scope, cfg, fs)
        case Failure(e) => Failure(e)
        case Success(t) => Success(Expansion(h.text + t.text, t.scope))
  }

  /** The replacement for one directive. */
  function ExpandDirective(fuel: nat, d: Directive, filePath: string, scope: Scope, cfg: Config, fs: FileSystem): (r: Result<Expansion>)
    ensures r.Success? ==> Extends(scope, r.value.scope)
    decreases fuel, 0
  {
    match Gate(ParseInlineOptions(d.attributes), scope)
    case None => Success(Expansion("", scope))
    case Some(opts) =>
      var merged := Merge(scope, opts);
      var path := ResolveIncludePath(d.path, filePath, cfg.basePath);
      if path !in fs then Failure(MissingFile(path))
      else if fuel == 0 then Failure(TooDeep(path))
      else Expand(fuel - 1, ApplyIndent(d.indent, fs[path]), path, merged, cfg, fs)
  }

  /** The task on one source file: normalise the base path, then expand. */
  function Bake(cfg: Config, src: string, srcPath: string, content: Scope, fs: FileSystem, fuel: nat): Result<string> {
    var normalized := cfg.(basePath := NormalizeBasePath(cfg.basePath));
    match Expand(fuel, src, srcPath, content, normalized, fs)
    case Failure(e) => Failure(e)
    case Success(x) => Success(x.text)
  }

  /** Literal text in front of an expansion's text. */
  function Prepend(a: string, r: Result<Expansion>): Result<Expansion> {
    match r
    case Failure(e) => Failure(e)
    case Success(x) => Success(Expansion(a + x.text, x.scope))
  }

  /** A replacement's result followed by the expansion of the processed text
      after it, with the data the replacement left; a failure stops everything. */
  function Continue(head: Result<Expansion>, fuel: nat, rest: string, filePath: string, cfg: Config, fs: FileSystem): Result<Expansion> {
    match head
    case Failure(e) => Failure(e)
    case Success(h) => Prepend(h.text, ExpandProcessed(fuel, rest, filePath, h.scope, cfg, fs))
  }

  lemma PrependPrepend(a: string, b: string, r: Result<Expansion>)
    ensures Prepend(a, Prepend(b, r)) == Prepend(a + b, r)
  {
    if r.Success? {
      assert a + (b + r.value.text) == (a + b) + r.value.text;
    }
  }

  /** A literal character in front of the pieces comes out in front of the text. */
  lemma ExpandPushChar(fuel: nat, c: char, ps: seq<Piece<Directive>>, filePath: string, scope: Scope, cfg: Config, fs: FileSystem)
    ensures ExpandPieces(fuel, PushChar(c, ps), filePath, scope, cfg, fs) == Prepend([c], ExpandPieces(fuel, ps, filePath, scope, cfg, fs))
  {
    var r := PushChar(c, ps);
    if |ps| > 0 && ps[0].Text? {
      assert r[0] == Text([c] + ps[0].text) && r[1..] == ps[1..];
      var tail := ExpandPieces(fuel, ps[1..], filePath, scope, cfg, fs);
      if tail.Success? {
        assert ([c] + ps[0].text) + tail.value.text == [c] + (ps[0].text + tail.value.text);
      }
    } else {
      assert r[0] == Text([c]) && r[1..] == ps;
    }
  }

  /** Text in which no directive starts is copied to the output as it is, and
      the expansion resumes after it with the same data. */
  lemma {:induction false} ExpandSkipsLiteral(fuel: nat, s: string, k: nat, filePath: string, scope: Scope, cfg: Config, fs: FileSystem)
    requires k <= |s|
    requires forall j :: 0 <= j < k ==> DirectiveAt(s[j..]).None?
    ensures ExpandProcessed(fuel, s, filePath, scope, cfg, fs) ==
            Prepend(s[..k], ExpandProcessed(fuel, s[k..], filePath, scope, cfg, fs))
    decreases k
  {
    if k == 0 {
      assert s[..0] == [] && s[0..] == s;
      var r := ExpandProcessed(fuel, s, filePath, scope, cfg, fs);
      if r.Success? {
        assert [] + r.value.text == r.value.text;
      }
    } else {
      var t := s[k - 1..];
      ExpandSkipsLiteral(fuel, s, k - 1, filePath, scope, cfg, fs);
      ScanLiteralHead(DirectiveAt, t);
      assert t[0] == s[k - 1] && t[1..] == s[k..];
      ExpandPushChar(fuel, s[k - 1], Scan(DirectiveAt, s[k..]), filePath, scope, cfg, fs);
      PrependPrepend(s[..k - 1], [s[k - 1]], ExpandProcessed(fuel, s[k..], filePath, scope, cfg, fs));
      TakeSnoc(s, k);
    }
  }

  /** A directive at the start of the text is replaced first; the rest of the
      text is expanded with the data as that replacement left it, so a merge by
      one directive is seen by every later one. A failure stops everything. */
  lemma ExpandAfterDirective(fuel: nat, s: string, d: Directive, n: nat, filePath: string, scope: Scope, cfg: Config, fs: FileSystem)
    requires Matched(DirectiveAt(s), d, n)
    ensures ExpandProcessed(fuel, s, filePath, scope, cfg, fs) ==
            Continue(ExpandDirective(fuel, d, filePath, scope, cfg, fs), fuel, s[n..], filePath, cfg, fs)
  {
    ScanAfterHit(DirectiveAt, s, d, n);
    var ps := Scan(DirectiveAt, s);
    assert ps[0] == Hit(d, s[..n]) && ps[1..] == Scan(DirectiveAt, s[n..]);
  }

  /** A processed text without directives is the output, and the data is untouched. */
  lemma ExpandWithoutDirectives(fuel: nat, p: string, filePath: string, scope: Scope, cfg: Config, fs: FileSystem)
    requires forall j :: 0 <= j < |p| ==> DirectiveAt(p[j..]).None?
    ensures ExpandProcessed(fuel, p, filePath, scope, cfg, fs) == Success(Expansion(p, scope))
  {
    ScanWithoutMatch(DirectiveAt, p);
    var ps := Scan(DirectiveAt, p);
    if |p| > 0 {
      assert ps[0] == Text(p) && ps[1..] == [];
      assert ExpandPieces(fuel, ps[1..], filePath, scope, cfg, fs) == Success(Expansion("", scope));
      assert p + "" == p;
    }
  }

  /** A text with neither a `!` nor a `{` holds no directive and no placeholder:
      the built-in processors and the expansion leave it and the data as they are. */
  lemma ExpandPlainText(fuel: nat, text: string, filePath: string, scope: Scope, cfg: Config, fs: FileSystem)
    requires '!' !in text && '{' !in text
    requires !cfg.process.CustomProcessor?
    ensures Expand(fuel, text, filePath, scope, cfg, fs) == Success(Expansion(text, scope))
  {
    if cfg.process.DefaultProcessor? {
      NoBraceNoPlaceholder(text);
      NoPlaceholderUnchanged(text, scope);
    }
    NoBangNoDirective(text);
    ExpandWithoutDirectives(fuel, text, filePath, scope, cfg, fs);
  }

  /** An expansion that did not run out of fuel: a success or a missing file. */
  predicate Settled(r: Result<Expansion>) {
    r.Success? || r.error.MissingFile?
  }

  /** One more level of fuel changes no settled expansion. */
  lemma {:induction false} ExpandMoreFuel(fuel: nat, text: string, filePath: string, scope: Scope, cfg: Config, fs: FileSystem)
    requires Settled(Expand(fuel, text, filePath, scope, cfg, fs))
    ensures Expand(fuel + 1, text, filePath, scope, cfg, fs) == Expand(fuel, text, filePath, scope, cfg, fs)
    decreases fuel, 3
  {
    var ps := Scan(DirectiveAt, Process(cfg, text, scope));
    assert Expand(fuel, text, filePath, scope, cfg, fs) == ExpandPieces(fuel, ps, filePath, scope, cfg, fs);
    assert Expand(fuel + 1, text, filePath, scope, cfg, fs) == ExpandPieces(fuel + 1, ps, filePath, scope, cfg, fs);
    PiecesMoreFuel(fuel, ps, filePath, scope, cfg, fs);
  }

  lemma {:induction false} PiecesMoreFuel(fuel: nat, ps: seq<Piece<Directive>>, filePath: string, scope: Scope, cfg: Config, fs: FileSystem)
    requires Settled(ExpandPieces(fuel, ps, filePath, scope, cfg, fs))
    ensures ExpandPieces(fuel + 1, ps, filePath, scope, cfg, fs) == ExpandPieces(fuel, ps, filePath, scope, cfg, fs)
    decreases fuel, 2, |ps|
  {
    if |ps| > 0 {
      var head := match ps[0]
        case Text(t) => Success(Expansion(t, scope))
        case Hit(d, _) => ExpandDirective(fuel, d, filePath, scope, cfg, fs);
      if ps[0].Hit? {
        DirectiveMoreFuel(fuel, ps[0].value, filePath, scope, cfg, fs);
      }
      if head.Success? {
        PiecesMoreFuel(fuel, ps[1..], filePath, head.value.scope, cfg, fs);
      }
    }
  }

  lemma {:induction false} DirectiveMoreFuel(fuel: nat, d: Directive, filePath: string, scope: Scope, cfg: Config, fs: FileSystem)
    requires Settled(ExpandDirective(fuel, d, filePath, scope, cfg, fs))
    ensures ExpandDirective(fuel + 1, d, filePath, scope, cfg, fs) == ExpandDirective(fuel, d, filePath, scope, cfg, fs)
    decreases fuel, 1
  {
    var gate := Gate(ParseInlineOptions(d.attributes), scope);
    var path := ResolveIncludePath(d.path, filePath, cfg.basePath);
    if gate.None? || path !in fs {
      DirectiveStops(fuel, fuel + 1, d, filePath, scope, cfg, fs, fs);
    } else {
      IncludeMoreFuel(fuel, d, filePath, scope, cfg, fs);
    }
  }

  /** The include case: a settled directive had fuel left, and its include
      settles one level deeper. */
  lemma {:induction false} IncludeMoreFuel(fuel: nat, d: Directive, filePath: string, scope: Scope, cfg: Config, fs: FileSystem)
    requires Gate(ParseInlineOptions(d.attributes), scope).Some?
    requires ResolveIncludePath(d.path, filePath, cfg.basePath) in fs
    requires Settled(ExpandDirective(fuel, d, filePath, scope, cfg, fs))
    ensures ExpandDirective(fuel + 1, d, filePath, scope, cfg, fs) == ExpandDirective(fuel, d, filePath, scope, cfg, fs)
    decreases fuel, 0
  {
    var path := ResolveIncludePath(d.path, filePath, cfg.basePath);
    var merged := Merge(scope, Gate(ParseInlineOptions(d.attributes), scope).value);
    DirectiveIncludes(fuel + 1, d, filePath, scope, cfg, fs);
    if fuel > 0 {
      DirectiveIncludes(fuel, d, filePath, scope, cfg, fs);
      ExpandMoreFuel(fuel - 1, ApplyIndent(d.indent, fs[path]), path, merged, cfg, fs);
    }
  }

  /** A directive that fails its gate, or names a file that does not exist,
      is replaced without reading anything: the outcome is the same for any
      fuel and any file system lacking that file, and it succeeds, with no
      text and the data untouched, exactly when the gate failed. */
  lemma DirectiveStops(fuel: nat, fuel': nat, d: Directive, filePath: string, scope: Scope, cfg: Config, fs: FileSystem, fs': FileSystem)
    requires var path := ResolveIncludePath(d.path, filePath, cfg.basePath);
      Gate(ParseInlineOptions(d.attributes), scope).None? || (path !in fs && path !in fs')
    ensures ExpandDirective(fuel, d, filePath, scope, cfg, fs) == ExpandDirective(fuel', d, filePath, scope, cfg, fs')
    ensures ExpandDirective(fuel, d, filePath, scope, cfg, fs).Success? <==> Gate(ParseInlineOptions(d.attributes), scope).None?
    ensures ExpandDirective(fuel, d, filePath, scope, cfg, fs).Success? ==>
            ExpandDirective(fuel, d, filePath, scope, cfg, fs).value == Expansion("", scope)
    ensures ExpandDirective(fuel, d, filePath, scope, cfg, fs).Failure? ==>
            ExpandDirective(fuel, d, filePath, scope, cfg, fs).error == MissingFile(ResolveIncludePath(d.path, filePath, cfg.basePath))
  {
  }

  /** Inline options other than `_if` act exactly as a merge into the data
      ahead of the same directive without options. */
  lemma OptionsMergeFirst(fuel: nat, d: Directive, filePath: string, scope: Scope, cfg: Config, fs: FileSystem)
    requires "_if" !in ParseInlineOptions(d.attributes)
    ensures ExpandDirective(fuel, d, filePath, scope, cfg, fs) ==
            ExpandDirective(fuel, d.(attributes := ""), filePath, Merge(scope, ParseInlineOptions(d.attributes)), cfg, fs)
  {
    NoOptions();
    MergeNothing(Merge(scope, ParseInlineOptions(d.attributes)));
  }

  /** A directive that passes its gate and names a file that exists is
      replaced by the expansion of that file, one level deeper. */
  lemma DirectiveIncludes(fuel: nat, d: Directive, filePath: string, scope: Scope, cfg: Config, fs: FileSystem)
    requires Gate(ParseInlineOptions(d.attributes), scope).Some?
    requires ResolveIncludePath(d.path, filePath, cfg.basePath) in fs && fuel > 0
    ensures var path := ResolveIncludePath(d.path, filePath, cfg.basePath);
      ExpandDirective(fuel, d, filePath, scope, cfg, fs) ==
      Expand(fuel - 1, ApplyIndent(d.indent, fs[path]), path, Merge(scope, Gate(ParseInlineOptions(d.attributes), scope).value), cfg, fs)
  {
  }

  /** The fuel is only a bound: once an expansion settles, more fuel gives the
      same text and data, or the same missing file. */
  lemma {:induction false} ExpandFuelSettles(fuel: nat, more: nat, text: string, filePath: string, scope: Scope, cfg: Config, fs: FileSystem)
    requires fuel <= more
    requires Settled(Expand(fuel, text, filePath, scope, cfg, fs))
    ensures Expand(more, text, filePath, scope, cfg, fs) == Expand(fuel, text, filePath, scope, cfg, fs)
    decreases more - fuel
  {
    if fuel < more {
      ExpandMoreFuel(fuel, text, filePath, scope, cfg, fs);
      ExpandFuelSettles(fuel + 1, more, text, filePath, scope, cfg, fs);
    }
  }

  /** A base path given without its trailing `/` bakes exactly as with it. */
  lemma BakeTrailingSlash(cfg: Config, src: string, srcPath: string, content: Scope, fs: FileSystem, fuel: nat)
    requires |cfg.basePath| > 0 && cfg.basePath[|cfg.basePath| - 1] != '/'
    ensures Bake(cfg, src, srcPath, content, fs, fuel) == Bake(cfg.(basePath := cfg.basePath + "/"), src, srcPath, content, fs, fuel)
  {
    NormalizeBasePathIdempotent(cfg.basePath);
  }
}

=== FILE: indent.dfy ===
/**
 `applyIndent` (tasks/bake.js lines 138-150): the indent captured in front of a
 directive is put in front of every line of the included text.
 */
module Indent {
  import opened Strings

  /** Every line with `indent` in front of it. */
  function PrefixLines(indent: string, lines: seq<string>): (r: seq<string>)
    ensures |r| == |lines|
    ensures forall i :: 0 <= i < |lines| ==> r[i] == indent + lines[i]
  {
    seq(|lines|, i requires 0 <= i < |lines| => indent + lines[i])
  }

  /** `applyIndent`: an empty indent leaves the text alone; otherwise the text is
      split at line feeds, each line prefixed, and the lines joined again. */
  function ApplyIndent(indent: string, content: string): string {
    if |indent| == 0 then content
    else Join(PrefixLines(indent, Split(content, '\n')), '\n')
  }

  /** Indenting keeps the lines of the text, each with the indent in front: the
      result has as many lines as the text, and line `i` of the result is the
      indent followed by line `i` of the text. */
  lemma ApplyIndentLines(indent: string, content: string)
    requires |indent| > 0 && '\n' !in indent
    ensures Split(ApplyIndent(indent, content), '\n') == PrefixLines(indent, Split(content, '\n'))
  {
    var lines := PrefixLines(indent, Split(content, '\n'));
    forall i | 0 <= i < |lines| ensures '\n' !in lines[i] {
      var line := Split(content, '\n')[i];
      assert lines[i] == indent + line;
    }
    SplitJoin(lines, '\n');
  }

  /** Indenting adds no character but the indent's: apart from line feeds, a
      character occurs in the indented text exactly when it occurs in the
      indent or in the text. */
  lemma ApplyIndentChars(indent: string, content: string, c: char)
    requires c != '\n'
    ensures c in ApplyIndent(indent, content) <==> c in indent || c in content
  {
    if |indent| > 0 {
      var lines := Split(content, '\n');
      var prefixed := PrefixLines(indent, lines);
      JoinChars(lines, '\n', c);
      JoinChars(prefixed, '\n', c);
      if c in indent {
        assert c in prefixed[0];
      }
      if exists i :: 0 <= i < |lines| && c in lines[i] {
        var i :| 0 <= i < |lines| && c in lines[i];
        assert c in prefixed[i];
      }
      if exists i :: 0 <= i < |prefixed| && c in prefixed[i] {
        var i :| 0 <= i < |prefixed| && c in prefixed[i];
        assert prefixed[i] == indent + lines[i];
      }
    }
  }

  /** Every line with its first `n` characters dropped. */
  function DropPrefixes(n: nat, lines: seq<string>): (r: seq<string>)
    requires forall i :: 0 <= i < |lines| ==> n <= |lines[i]|
    ensures |r| == |lines|
    ensures forall i :: 0 <= i < |lines| ==> r[i] == lines[i][n..]
  {
    seq(|lines|, i requires 0 <= i < |lines| => lines[i][n..])
  }

  /** Removes an indent from every line, the inverse of indenting. */
  function StripIndent(indent: string, text: string): string
    requires |indent| > 0
    requires forall i :: 0 <= i < |Split(text, '\n')| ==> |indent| <= |Split(text, '\n')[i]|
  {
    Join(DropPrefixes(|indent|, Split(text, '\n')), '\n')
  }

  /** Stripping the indent from an indented text gives the text back. */
  lemma StripApplyIndent(indent: string, content: string)
    requires |indent| > 0 && '\n' !in indent
    ensures var text := ApplyIndent(indent, content);
      && (forall i :: 0 <= i < |Split(text, '\n')| ==> |indent| <= |Split(text, '\n')[i]|)
      && StripIndent(indent, text) == content
  {
    var lines := Split(content, '\n');
    ApplyIndentLines(indent, content);
    var text := ApplyIndent(indent, content);
    var stripped := DropPrefixes(|indent|, Split(text, '\n'));
    assert stripped == lines by {
      forall i | 0 <= i < |lines| ensures stripped[i] == lines[i] {
        assert (indent + lines[i])[|indent|..] == lines[i];
      }
    }
  }

  /** An empty indent changes nothing. */
  lemma ApplyEmptyIndent(content: string)
    ensures ApplyIndent("", content) == content
  {
  }
}

=== FILE: inline_options.dfy ===
/**
 The attribute text of a directive, parsed as tasks/bake.js lines 53 and 81-90
 do: the global expression `([\S_]+)="([^"]+)"` is run over the text with
 repeated `exec`, and every match stores its value under its key, a later
 match overwriting an earlier one.

 At a given start the key `[\S_]+` (which is just `\S+`) is greedy and gives
 characters back until `="`, a non-empty quote-free value and a closing `"`
 follow, so the key chosen is the LONGEST one for which the rest matches.
 */
module InlineOptions {
  import opened Optional
  import opened Strings
  import opened Scanner

  type Options = map<string, string>

  predicate NotQuote(c: char) {
    c != '"'
  }

  /** What the key group accepts: one or more non-whitespace characters. */
  predicate ValidKey(k: string) {
    |k| > 0 && forall i :: 0 <= i < |k| ==> !IsSpace(k[i])
  }

  /** What the value group accepts: one or more characters other than `"`. */
  predicate ValidValue(v: string) {
    |v| > 0 && '"' !in v
  }

  /** Length of the quote-free run starting at `i`. */
  function ValueLen(s: string, i: nat): (n: nat)
    requires i <= |s|
    ensures i + n <= |s|
  {
    SpanLen(s[i..], NotQuote)
  }

  /** The attribute expression matches at the start of `s` with a key of length `k`:
      the key has no whitespace, `="` follows it, then a non-empty quote-free
      value and its closing `"`. */
  predicate KeyEndsAt(s: string, k: nat) {
    && 0 < k && k + 2 <= |s|
    && s[k] == '=' && s[k + 1] == '"'
    && (forall x :: 0 <= x < k ==> !IsSpace(s[x]))
    && 0 < ValueLen(s, k + 2) && k + 2 + ValueLen(s, k + 2) < |s|
  }

  /** The longest key length in `1..k` for which the expression matches. */
  function LastKeyEnd(s: string, k: nat): (r: Option<nat>)
    ensures r.Some? ==> 0 < r.value <= k && KeyEndsAt(s, r.value)
    ensures r.Some? ==> forall k' :: r.value < k' <= k ==> !KeyEndsAt(s, k')
    ensures r.None? ==> forall k' :: 0 < k' <= k ==> !KeyEndsAt(s, k')
    decreases k
  {
    if k == 0 then None
    else if KeyEndsAt(s, k) then Some(k)
    else LastKeyEnd(s, k - 1)
  }

  /** One `key="value"` match at the start of `s`. */
  function AttrAt(s: string): (r: Option<Match<(string, string)>>)
    ensures r.Some? ==> ValidKey(r.value.value.0) && ValidValue(r.value.value.1)
    ensures r.Some? ==> 0 < r.value.len <= |s|
  {
    match LastKeyEnd(s, |s|)
    case None => None
    case Some(k) =>
      var v := ValueLen(s, k + 2);
      var value := s[k + 2..k + 2 + v];
      assert forall i :: 0 <= i < v ==> value[i] == s[k + 2..][i];
      Some(Match((s[..k], value), k + 3 + v))
  }

  /** The key chosen is the longest one the expression allows, and there is a
      match exactly when some key length works. */
  lemma AttrAtMeaning(s: string)
    ensures AttrAt(s).None? <==> forall k: nat :: !KeyEndsAt(s, k)
    ensures AttrAt(s).Some? ==>
      var key := AttrAt(s).value.value.0;
      && KeyEndsAt(s, |key|) && key == s[..|key|]
      && AttrAt(s).value.value.1 == s[|key| + 2..|key| + 2 + ValueLen(s, |key| + 2)]
      && forall k: nat :: KeyEndsAt(s, k) ==> k <= |key|
  {
  }

  /** Folds the matches into an object; a later key overwrites an earlier one. */
  function Collect(ps: seq<Piece<(string, string)>>, acc: Options): Options
    decreases |ps|
  {
    if |ps| == 0 then acc
    else
      var acc' := match ps[0]
        case Text(_) => acc
        case Hit(kv, _) => acc[kv.0 := kv.1];
      Collect(ps[1..], acc')
  }

  /** `parseInlineOptions`: the options an attribute text sets. */
  function ParseInlineOptions(attributes: string): (r: Options)
    ensures forall k :: k in r ==> ValidKey(k) && ValidValue(r[k])
  {
    var ps := Scan(AttrAt, attributes);
    ScanHitsValid(attributes);
    CollectValid(ps, map[]);
    Collect(ps, map[])
  }

  /** An empty attribute text sets no option. */
  lemma NoOptions()
    ensures ParseInlineOptions("") == map[]
  {
    assert Scan(AttrAt, "") == [];
  }

  /** An attribute text in which the expression matches nowhere sets no
      option, as `exec` returns `null` at once. */
  lemma NoMatchNoOptions(attributes: string)
    requires forall i :: 0 <= i < |attributes| ==> AttrAt(attributes[i..]).None?
    ensures ParseInlineOptions(attributes) == map[]
  {
    ScanWithoutMatch(AttrAt, attributes);
    if |attributes| > 0 {
      var ps := Scan(AttrAt, attributes);
      assert ps == [Text(attributes)] && ps[1..] == [];
      assert Collect(ps, map[]) == Collect(ps[1..], map[]);
    }
  }

  predicate ValidPair(kv: (string, string)) {
    ValidKey(kv.0) && ValidValue(kv.1)
  }

  /** Every hit of the attribute scan is a valid pair. */
  lemma {:induction false} ScanHitsValid(s: string)
    ensures forall i :: 0 <= i < |Scan(AttrAt, s)| && Scan(AttrAt, s)[i].Hit? ==> ValidPair(Scan(AttrAt, s)[i].value)
    decreases |s|
  {
    if |s| == 0 {
    } else if MatchesAt(AttrAt, s) {
      var n := AttrAt(s).value.len;
      ScanHitsValid(s[n..]);
      var ps := Scan(AttrAt, s);
      assert ps[1..] == Scan(AttrAt, s[n..]);
    } else {
      ScanHitsValid(s[1..]);
      var tail := Scan(AttrAt, s[1..]);
      var ps := Scan(AttrAt, s);
      assert ps == PushChar(s[0], tail);
      PushCharKeepsTail(s[0], tail);
      forall i | 0 <= i < |ps| && ps[i].Hit? ensures ValidPair(ps[i].value) {
        assert ps[i] == tail[i + |tail| - |ps|];
      }
    }
  }

  lemma {:induction false} CollectValid(ps: seq<Piece<(string, string)>>, acc: Options)
    requires forall i :: 0 <= i < |ps| && ps[i].Hit? ==> ValidPair(ps[i].value)
    requires forall k :: k in acc ==> ValidKey(k) && ValidValue(acc[k])
    ensures forall k :: k in Collect(ps, acc) ==> ValidKey(k) && ValidValue(Collect(ps, acc)[k])
    decreases |ps|
  {
    if |ps| > 0 {
      var acc' := match ps[0] case Text(_) => acc case Hit(kv, _) => acc[kv.0 := kv.1];
      assert forall i :: 0 <= i < |ps[1..]| ==> ps[1..][i] == ps[i + 1];
      CollectValid(ps[1..], acc');
    }
  }

  /** Piece `i` is the last hit that sets key `k`. */
  ghost predicate LastHitFor(ps: seq<Piece<(string, string)>>, i: int, k: string) {
    && 0 <= i < |ps| && ps[i].Hit? && ps[i].value.0 == k
    && forall j :: i < j < |ps| && ps[j].Hit? ==> ps[j].value.0 != k
  }

  /** No hit sets key `k`. */
  ghost predicate NoHitFor(ps: seq<Piece<(string, string)>>, k: string) {
    forall j :: 0 <= j < |ps| && ps[j].Hit? ==> ps[j].value.0 != k
  }

  /** A key no hit sets keeps whatever the accumulator had. */
  lemma {:induction false} CollectUntouched(ps: seq<Piece<(string, string)>>, acc: Options, k: string)
    requires NoHitFor(ps, k)
    ensures (k in Collect(ps, acc)) == (k in acc)
    ensures k in acc ==> Collect(ps, acc)[k] == acc[k]
    decreases |ps|
  {
    if |ps| > 0 {
      var acc' := match ps[0] case Text(_) => acc case Hit(kv, _) => acc[kv.0 := kv.1];
      assert NoHitFor(ps[1..], k) by {
        assert forall j :: 0 <= j < |ps[1..]| ==> ps[1..][j] == ps[j + 1];
      }
      CollectUntouched(ps[1..], acc', k);
    }
  }

  /** The last hit for a key decides its value. */
  lemma {:induction false} CollectLastWins(ps: seq<Piece<(string, string)>>, acc: Options, i: int, k: string)
    requires LastHitFor(ps, i, k)
    ensures k in Collect(ps, acc) && Collect(ps, acc)[k] == ps[i].value.1
    decreases |ps|
  {
    var acc' := match ps[0] case Text(_) => acc case Hit(kv, _) => acc[kv.0 := kv.1];
    assert forall j :: 0 <= j < |ps[1..]| ==> ps[1..][j] == ps[j + 1];
    if i == 0 {
      assert NoHitFor(ps[1..], k);
      CollectUntouched(ps[1..], acc', k);
    } else {
      assert LastHitFor(ps[1..], i - 1, k);
      CollectLastWins(ps[1..], acc', i - 1, k);
    }
  }

  /** A key is set exactly when some match carries it, and then the last such
      match in the text gives its value. */
  lemma ParseInlineOptionsLastWins(attributes: string, i: int, k: string)
    requires LastHitFor(Scan(AttrAt, attributes), i, k)
    ensures k in ParseInlineOptions(attributes)
    ensures ParseInlineOptions(attributes)[k] == Scan(AttrAt, attributes)[i].value.1
  {
    CollectLastWins(Scan(AttrAt, attributes), map[], i, k);
  }

  lemma ParseInlineOptionsUnset(attributes: string, k: string)
    requires NoHitFor(Scan(AttrAt, attributes), k)
    ensures k !in ParseInlineOptions(attributes)
  {
    CollectUntouched(Scan(AttrAt, attributes), map[], k);
  }

  /** One attribute as written in a directive: `key="value"`. */
  function Attr(kv: (string, string)): string {
    kv.0 + "=\"" + kv.1 + "\""
  }

  /** Attributes written one after another, separated by single spaces. */
  function RenderAttrs(pairs: seq<(string, string)>): string
    decreases |pairs|
  {
    if |pairs| == 0 then ""
    else if |pairs| == 1 then Attr(pairs[0])
    else Attr(pairs[0]) + (" " + RenderAttrs(pairs[1..]))
  }

  /** The object a list of pairs builds, a later pair overwriting an earlier one. */
  function PairsToMap(pairs: seq<(string, string)>, acc: Options): Options
    decreases |pairs|
  {
    if |pairs| == 0 then acc else PairsToMap(pairs[1..], acc[pairs[0].0 := pairs[0].1])
  }

  /** A pair that reads back as itself: a valid key without quotes, and a valid
      value that does not end in `=` (see `GreedyKeyExample`). */
  predicate Renderable(kv: (string, string)) {
    && ValidKey(kv.0) && '"' !in kv.0
    && ValidValue(kv.1) && kv.1[|kv.1| - 1] != '='
  }

  lemma AttrParts(kv: (string, string), t: string)
    ensures Attr(kv) + t == kv.0 + ("=\"" + (kv.1 + ("\"" + t)))
    ensures |Attr(kv)| == |kv.0| + |kv.1| + 3
  {
  }

  /** In a rendered attribute the key itself is a match. */
  lemma KeyEndsAtRendered(key: string, value: string, t: string)
    requires ValidKey(key) && ValidValue(value)
    ensures KeyEndsAt(key + ("=\"" + (value + ("\"" + t))), |key|)
    ensures ValueLen(key + ("=\"" + (value + ("\"" + t))), |key| + 2) == |value|
  {
    var s := key + ("=\"" + (value + ("\"" + t)));
    var r := value + ("\"" + t);
    assert s[|key| + 2..] == r by {
      SplitAt(key, "=\"" + r);
      SplitAt("=\"", r);
    }
    assert forall i :: 0 <= i < |value| ==> NotQuote(value[i]) by {
      assert forall i :: 0 <= i < |value| ==> value[i] in value;
    }
    RunThenStop(value, "\"" + t, NotQuote);
    assert forall x :: 0 <= x < |key| ==> s[x] == key[x];
  }

  /** In a rendered attribute no longer key is a match, as long as the value
      does not end in `=` and whitespace or nothing follows the closing quote. */
  lemma NoLongerKey(key: string, value: string, t: string)
    requires '"' !in key && ValidValue(value) && value[|value| - 1] != '='
    requires |t| == 0 || IsSpace(t[0])
    ensures forall k: nat :: |key| < k ==> !KeyEndsAt(key + ("=\"" + (value + ("\"" + t))), k)
  {
    var s := key + ("=\"" + (value + ("\"" + t)));
    var e := |key| + 2 + |value|;
    assert s[e] == '"';
    assert |s| == e + 1 + |t|;
    forall k: nat | |key| < k ensures !KeyEndsAt(s, k) {
      if k + 2 <= |s| {
        if k == |key| + 1 {
          assert s[k] == '"';
        } else if k < e - 1 {
          assert s[k + 1] == value[k + 1 - |key| - 2];
          assert s[k + 1] in value;
        } else if k == e - 1 {
          assert s[k] == value[|value| - 1];
        } else if k == e {
        } else {
          assert s[e + 1] == t[0];
        }
      }
    }
  }

  /** The longest key is the one every longer candidate fails for. */
  lemma LastKeyEndIs(s: string, k: nat)
    requires KeyEndsAt(s, k)
    requires forall k': nat :: k < k' ==> !KeyEndsAt(s, k')
    ensures LastKeyEnd(s, |s|) == Some(k)
  {
  }

  /** A rendered attribute reads back as its pair. */
  lemma AttrAtRendered(kv: (string, string), t: string)
    requires Renderable(kv)
    requires |t| == 0 || IsSpace(t[0])
    ensures Matched(AttrAt(Attr(kv) + t), kv, |Attr(kv)|)
  {
    var (key, value) := kv;
    var s := key + ("=\"" + (value + ("\"" + t)));
    AttrParts(kv, t);
    KeyEndsAtRendered(key, value, t);
    NoLongerKey(key, value, t);
    LastKeyEndIs(s, |key|);
    assert s[..|key|] == key by { SplitAt(key, "=\"" + (value + ("\"" + t))); }
    assert s[|key| + 2..|key| + 2 + |value|] == value by {
      assert s[|key| + 2..] == value + ("\"" + t) by {
        SplitAt(key, "=\"" + (value + ("\"" + t)));
        SplitAt("=\"", value + ("\"" + t));
      }
      assert s[|key| + 2..|key| + 2 + |value|] == s[|key| + 2..][..|value|];
      SplitAt(value, "\"" + t);
    }
  }

  /** No key starts at whitespace. */
  lemma NoAttrAtSpace(s: string)
    requires |s| > 0 && IsSpace(s[0])
    ensures AttrAt(s).None?
  {
  }

  /** Literal text does not change the collected object. */
  lemma CollectPushChar(c: char, ps: seq<Piece<(string, string)>>, acc: Options)
    ensures Collect(PushChar(c, ps), acc) == Collect(ps, acc)
  {
    var r := PushChar(c, ps);
    if |ps| > 0 && ps[0].Text? {
      assert r[1..] == ps[1..];
    } else {
      assert r[1..] == ps;
    }
  }

  /** A rendered attribute at the head sets its key, then the scan goes on after it. */
  lemma CollectAttrHead(kv: (string, string), tail: string, acc: Options)
    requires Renderable(kv)
    requires |tail| == 0 || IsSpace(tail[0])
    ensures Collect(Scan(AttrAt, Attr(kv) + tail), acc) == Collect(Scan(AttrAt, tail), acc[kv.0 := kv.1])
  {
    var s := Attr(kv) + tail;
    AttrAtRendered(kv, tail);
    var m := AttrAt(s).value;
    ScanAfterHit(AttrAt, s, m.value, m.len);
    assert s[m.len..] == tail by { SplitAt(Attr(kv), tail); }
    var ps := Scan(AttrAt, s);
    assert ps[1..] == Scan(AttrAt, tail);
  }

  /** A separating space is literal text. */
  lemma CollectSpaceHead(rest: string, acc: Options)
    ensures Collect(Scan(AttrAt, " " + rest), acc) == Collect(Scan(AttrAt, rest), acc)
  {
    var t := " " + rest;
    NoAttrAtSpace(t);
    ScanLiteralHead(AttrAt, t);
    assert t[1..] == rest;
    CollectPushChar(' ', Scan(AttrAt, rest), acc);
  }

  /** Rendering pairs and parsing the text back builds the same object as the
      pairs themselves. */
  lemma {:induction false} CollectRendered(pairs: seq<(string, string)>, acc: Options)
    requires forall i :: 0 <= i < |pairs| ==> Renderable(pairs[i])
    ensures Collect(Scan(AttrAt, RenderAttrs(pairs)), acc) == PairsToMap(pairs, acc)
    decreases |pairs|
  {
    if |pairs| == 1 {
      CollectAttrHead(pairs[0], "", acc);
      assert Attr(pairs[0]) + "" == Attr(pairs[0]);
    } else if |pairs| > 1 {
      var kv := pairs[0];
      var rest := RenderAttrs(pairs[1..]);
      var acc' := acc[kv.0 := kv.1];
      CollectAttrHead(kv, " " + rest, acc);
      CollectSpaceHead(rest, acc');
      CollectRendered(pairs[1..], acc');
    }
  }

  /** `parseInlineOptions` reads rendered attributes back as the object they describe. */
  lemma ParseRenderedAttrs(pairs: seq<(string, string)>)
    requires forall i :: 0 <= i < |pairs| ==> Renderable(pairs[i])
    ensures ParseInlineOptions(RenderAttrs(pairs)) == PairsToMap(pairs, map[])
  {
    CollectRendered(pairs, map[]);
  }

  /** The greedy key at work: when a value ends in `=` and another attribute
      follows, the key swallows the first attribute and its value runs into the
      second, so `a="x=" b="y"` sets the single key `a="x` to ` b=`. */
  lemma GreedyKeyExample()
    ensures AttrAt("a=\"x=\" b=\"y\"") == Some(Match(("a=\"x", " b="), 10))
  {
    var s := "a=\"x=\" b=\"y\"";
    assert ValueLen(s, 6) == 3 by {
      assert s[6..] == " b=" + "\"y\"";
      RunThenStop(" b=", "\"y\"", NotQuote);
    }
    assert KeyEndsAt(s, 4);
    forall k: nat | 4 < k ensures !KeyEndsAt(s, k) {
      if 8 <= k { assert IsSpace(s[6]); }
    }
    LastKeyEndIs(s, 4);
    assert s[..4] == "a=\"x" && s[6..9] == " b=";
  }
}

=== FILE: optional.dfy ===
/** A value that may be missing: the result of a lookup or of a token matcher. */
module Optional {

  datatype Option<+T> = None | Some(value: T)
}

=== FILE: paths.dfy ===
/**
 Include paths (tasks/bake.js): `directory` (lines 70-76), the resolution of an
 include path against the including file or the base path (lines 181-185), and
 the normalisation of the `basePath` option (lines 201-207).
 */
module Paths {
  import opened Strings

  /** `directory`: split at `/`, drop the last segment, join the rest with `/`. */
  function Directory(path: string): string {
    var segments := Split(path, '/');
    Join(segments[..|segments| - 1], '/')
  }

  /** The directory of a path is everything before its last `/`. */
  lemma DirectoryIsBeforeLastSlash(path: string, i: nat)
    requires i < |path| && path[i] == '/' && '/' !in path[i + 1..]
    ensures Directory(path) == path[..i]
  {
    var a, b := path[..i], path[i + 1..];
    assert path == a + ['/'] + b;
    SplitAround(a, b, '/');
    SplitWithoutSeparator(b, '/');
    var segments := Split(path, '/');
    assert segments[..|segments| - 1] == Split(a, '/');
  }

  /** A path without `/` lies in the empty directory. */
  lemma DirectoryWithoutSlash(path: string)
    requires '/' !in path
    ensures Directory(path) == ""
  {
    SplitWithoutSeparator(path, '/');
  }

  /** The directory, a `/` and the file name give the path back. */
  lemma DirectoryAndName(dir: string, name: string)
    requires '/' !in name
    ensures Directory(dir + "/" + name) == dir
  {
    var path := dir + "/" + name;
    assert path[..|dir|] == dir;
    assert path[|dir| + 1..] == name;
    DirectoryIsBeforeLastSlash(path, |dir|);
  }

  /** Where an include is read from: a path starting with `/` is taken from the
      base path, any other relative to the directory of the including file. */
  function ResolveIncludePath(includePath: string, filePath: string, basePath: string): string {
    if |includePath| > 0 && includePath[0] == '/' then basePath + includePath[1..]
    else Directory(filePath) + "/" + includePath
  }

  /** An include starting with `/` does not depend on the including file: it is
      the base path followed by the include path without its leading `/`. */
  lemma AbsoluteIncludeUnderBase(includePath: string, filePath: string, otherFile: string, basePath: string)
    requires |includePath| > 0 && includePath[0] == '/'
    ensures ResolveIncludePath(includePath, filePath, basePath) == ResolveIncludePath(includePath, otherFile, basePath)
    ensures var r := ResolveIncludePath(includePath, filePath, basePath);
      |r| == |basePath| + |includePath| - 1 && r[..|basePath|] == basePath && r[|basePath|..] == includePath[1..]
  {
  }

  /** A relative include from a file in `dir` lands in `dir`. */
  lemma RelativeIncludeBesideFile(dir: string, name: string, includePath: string, basePath: string)
    requires '/' !in name
    requires |includePath| > 0 && includePath[0] != '/'
    ensures ResolveIncludePath(includePath, dir + "/" + name, basePath) == dir + "/" + includePath
  {
    DirectoryAndName(dir, name);
  }

  /** A relative include from a file given without a directory resolves against
      the root: the result starts with `/`. */
  lemma RelativeIncludeFromBareName(name: string, includePath: string, basePath: string)
    requires '/' !in name
    requires |includePath| > 0 && includePath[0] != '/'
    ensures ResolveIncludePath(includePath, name, basePath) == "/" + includePath
  {
    DirectoryWithoutSlash(name);
  }

  /** The `basePath` option as the task uses it: a non-empty base path that
      does not end in `/` gets one appended. */
  function NormalizeBasePath(basePath: string): (r: string)
    ensures r == "" || r[|r| - 1] == '/'
    ensures |basePath| <= |r| <= |basePath| + 1 && r[..|basePath|] == basePath
    ensures r == basePath <==> (basePath == "" || basePath[|basePath| - 1] == '/')
  {
    if |basePath| > 0 && basePath[|basePath| - 1] != '/' then basePath + "/" else basePath
  }

  /** Normalising twice changes nothing. */
  lemma NormalizeBasePathIdempotent(basePath: string)
    ensures NormalizeBasePath(NormalizeBasePath(basePath)) == NormalizeBasePath(basePath)
  {
  }
}

=== FILE: placeholders.dfy ===
/**
 The default content processor (`defaultProcess` in tasks/bake.js): every
 `{{key}}` token, with a key of word characters, dots and hyphens (possibly
 empty), is replaced by `resolveName(key)` in one left-to-right scan.
 */
module Placeholders {
  import opened Optional
  import opened Strings
  import opened Scanner
  import opened Data

  /** The key class `[.\-\w]` of the placeholder grammar. */
  predicate IsKeyChar(c: char) {
    c == '.' || c == '-' || IsWordChar(c)
  }

  /** The placeholder grammar `\{\{([.\-\w]*)\}\}`, matched at the start of `s`. */
  function PlaceholderAt(s: string): (r: Option<Match<string>>)
    ensures r.Some? ==>
              && r.value.len == |r.value.value| + 4 <= |s|
              && s[..r.value.len] == "{{" + r.value.value + "}}"
              && forall i :: 0 <= i < |r.value.value| ==> IsKeyChar(r.value.value[i])
  {
    if |s| < 2 || s[0] != '{' || s[1] != '{' then None
    else
      var k := SpanLen(s[2..], IsKeyChar);
      if k + 4 <= |s| && s[k + 2] == '}' && s[k + 3] == '}' then
        TokenPrefix(s, s[2..], k);
        Some(Match(s[2..k + 2], k + 4))
      else None
  }

  /** Braces around the key run make the token's text. */
  lemma TokenPrefix(s: string, r: string, k: nat)
    requires k + 4 <= |s| && s[0] == '{' && s[1] == '{' && s[k + 2] == '}' && s[k + 3] == '}'
    requires r == s[2..] && forall i :: 0 <= i < k ==> IsKeyChar(r[i])
    ensures s[..k + 4] == "{{" + s[2..k + 2] + "}}"
    ensures var key := s[2..k + 2]; forall i :: 0 <= i < k ==> IsKeyChar(key[i])
  {
    var key := s[2..k + 2];
    var t := "{{" + key + "}}";
    assert |t| == k + 4;
    forall i | 0 <= i < k + 4 ensures s[i] == t[i] {
      if 2 <= i < k + 2 {
        assert t[i] == key[i - 2];
      }
    }
    forall i | 0 <= i < k ensures IsKeyChar(key[i]) {
      assert key[i] == r[i];
    }
  }

  /** A well-formed token is recognised whatever follows it. */
  lemma PlaceholderRoundTrip(key: string, rest: string)
    requires forall i :: 0 <= i < |key| ==> IsKeyChar(key[i])
    ensures PlaceholderAt("{{" + key + "}}" + rest) == Some(Match(key, |key| + 4))
  {
    var s := "{{" + key + "}}" + rest;
    var t := "}}" + rest;
    assert s[2..] == key + t;
    RunThenStop(key, t, IsKeyChar);
    assert s[2..|key| + 2] == key;
    assert s[|key| + 2] == '}' && s[|key| + 3] == '}';
  }

  /** The processor's output: each token replaced by its resolved value. */
  function DefaultProcess(template: string, scope: Scope): string {
    Replace(Scan(PlaceholderAt, template), Resolver(scope))
  }

  /** The replacement callback: a key to its resolved text. */
  function Resolver(scope: Scope): string -> string {
    key => ResolveName(key, scope)
  }

  /** Some `{{key}}` token starts somewhere in the text. */
  ghost predicate HasPlaceholder(t: string) {
    exists j :: 0 <= j < |t| && PlaceholderAt(t[j..]).Some?
  }

  /** Text without a token comes out of the processor unchanged. */
  lemma NoPlaceholderUnchanged(t: string, scope: Scope)
    requires !HasPlaceholder(t)
    ensures DefaultProcess(t, scope) == t
  {
    assert forall j :: 0 <= j < |t| ==> !MatchesAt(PlaceholderAt, t[j..]);
    ReplaceWithoutMatch(PlaceholderAt, t, Resolver(scope));
  }

  /** Text without a `{` holds no token. */
  lemma NoBraceNoPlaceholder(t: string)
    requires '{' !in t
    ensures !HasPlaceholder(t)
  {
    forall j | 0 <= j < |t| ensures PlaceholderAt(t[j..]).None? {
      assert t[j..][0] == t[j];
    }
  }

  lemma TokenAfter(a: string, key: string, b: string)
    ensures a + ("{{" + key + "}}" + b) == a + "{{" + key + "}}" + b
  {
  }

  /** Inside a token, `{` appears only in the opening braces. */
  lemma BraceOnlyOpens(u: string, key: string, n: nat, q: nat)
    requires PlaceholderAt(u) == Some(Match(key, n)) && 2 <= q < n
    ensures u[q] != '{'
  {
    assert u[q] == u[..n][q];
    if q < |key| + 2 {
      assert u[..n][q] == key[q - 2];
    }
  }

  /** A token that starts in `a` cannot run on into a `{{` that follows `a`,
      so it lies within `a`. */
  lemma TokenInPrefix(a: string, t: string, j: nat)
    requires j < |a| && |t| >= 2 && t[0] == '{' && t[1] == '{'
    requires PlaceholderAt((a + t)[j..]).Some?
    ensures PlaceholderAt(a[j..]).Some?
  {
    var u := (a + t)[j..];
    var key, n := PlaceholderAt(u).value.value, PlaceholderAt(u).value.len;
    var p := |a| - j;
    if j + n > |a| {
      var q := if p + 1 < n then p + 1 else p;
      assert u[q] == (if p + 1 < n then t[1] else t[0]);
      BraceOnlyOpens(u, key, n, q);
      assert false;
    }
    assert a[j..] == "{{" + key + "}}" + a[j + n..] by {
      assert a[j..] == u[..p];
      assert u[..n] == "{{" + key + "}}";
      assert u[..p] == u[..n] + u[n..p];
      assert u[n..p] == a[j + n..];
    }
    PlaceholderRoundTrip(key, a[j + n..]);
  }

  /** A token after text that holds no token is replaced by its resolved value
      and the text after it is processed in turn: replacement is left to right
      and resumes after each token. */
  lemma ProcessToken(a: string, key: string, b: string, scope: Scope)
    requires !HasPlaceholder(a)
    requires forall i :: 0 <= i < |key| ==> IsKeyChar(key[i])
    ensures DefaultProcess(a + "{{" + key + "}}" + b, scope) ==
            a + ResolveName(key, scope) + DefaultProcess(b, scope)
  {
    var t := "{{" + key + "}}" + b;
    var s := a + t;
    TokenAfter(a, key, b);
    var f := Resolver(scope);
    assert DefaultProcess(s, scope) == a + DefaultProcess(t, scope) by {
      forall j | 0 <= j < |a| ensures !MatchesAt(PlaceholderAt, s[j..]) {
        if PlaceholderAt(s[j..]).Some? {
          TokenInPrefix(a, t, j);
        }
      }
      ReplaceSkipsLiteral(PlaceholderAt, s, |a|, f);
      SplitAt(a, t);
    }
    assert DefaultProcess(t, scope) == ResolveName(key, scope) + DefaultProcess(b, scope) by {
      PlaceholderRoundTrip(key, b);
      ReplaceAfterHit(PlaceholderAt, t, key, |key| + 4, f);
      assert t[|key| + 4..] == b;
      assert f(key) == ResolveName(key, scope);
    }
    Regroup(DefaultProcess(s, scope), a, DefaultProcess(t, scope), ResolveName(key, scope), DefaultProcess(b, scope));
  }
}

=== FILE: scanner.dfy ===
/**
 The left-to-right, non-overlapping scan that a global JavaScript regular
 expression performs under `String.prototype.replace` and a repeated `exec`.
 A grammar is given as a matcher `at` that recognises one token at the very
 start of a string; the scan tries it at each position in turn, emits a hit and
 resumes after it, or keeps the character as literal text.
 */
module Scanner {
  import opened Optional
  import opened Strings

  /** A token recognised at the start of a string: its meaning and its length. */
  datatype Match<M> = Match(value: M, len: nat)

  /** `o` is a match of value `v` spanning `n` characters. */
  predicate Matched<M(==)>(o: Option<Match<M>>, v: M, n: nat) {
    o.Some? && o.value.value == v && o.value.len == n
  }

  /** A stretch of literal text, or a recognised token with the text it spans. */
  datatype Piece<M> = Text(text: string) | Hit(value: M, raw: string)

  /** The matcher recognises a non-empty token at the start of `s`. */
  predicate MatchesAt<M>(at: string -> Option<Match<M>>, s: string) {
    at(s).Some? && 0 < at(s).value.len <= |s|
  }

  function RawOf<M>(p: Piece<M>): string {
    match p
    case Text(t) => t
    case Hit(_, r) => r
  }

  /** The text a sequence of pieces spans. */
  function Unscan<M>(ps: seq<Piece<M>>): string
    decreases |ps|
  {
    if |ps| == 0 then "" else RawOf(ps[0]) + Unscan(ps[1..])
  }

  /** Prepends one literal character, merging it into a leading text piece. */
  function PushChar<M>(c: char, ps: seq<Piece<M>>): (r: seq<Piece<M>>)
    ensures Unscan(r) == [c] + Unscan(ps)
  {
    if |ps| > 0 && ps[0].Text? then
      var r := [Text([c] + ps[0].text)] + ps[1..];
      assert r[1..] == ps[1..];
      r
    else
      var r := [Text([c])] + ps;
      assert r[1..] == ps;
      r
  }

  /** Pushing a character leaves every piece after the first as it was. */
  lemma PushCharKeepsTail<M>(c: char, ps: seq<Piece<M>>)
    ensures var r := PushChar(c, ps);
      && r[0].Text? && |ps| <= |r| <= |ps| + 1
      && forall i :: 0 < i < |r| ==> r[i] == ps[i + |ps| - |r|]
  {
  }

  /** The global scan of `s`; the pieces span exactly `s`. */
  function Scan<M>(at: string -> Option<Match<M>>, s: string): (ps: seq<Piece<M>>)
    decreases |s|
  {
    if |s| == 0 then []
    else if MatchesAt(at, s) then
      var n := at(s).value.len;
      var ps := [Hit(at(s).value.value, s[..n])] + Scan(at, s[n..]);
      ps
    else
      PushChar(s[0], Scan(at, s[1..]))
  }

  /** The pieces of a scan span exactly the scanned text. */
  lemma {:induction false} ScanSpans<M>(at: string -> Option<Match<M>>, s: string)
    ensures Unscan(Scan(at, s)) == s
    decreases |s|
  {
    if |s| == 0 {
    } else if MatchesAt(at, s) {
      var n := at(s).value.len;
      var tail := Scan(at, s[n..]);
      ScanSpans(at, s[n..]);
      ScanAfterHit(at, s, at(s).value.value, n);
      UnscanAfterHit(at(s).value.value, s, n, tail);
    } else {
      ScanSpans(at, s[1..]);
      ScanLiteralHead(at, s);
      assert s == [s[0]] + s[1..];
    }
  }

  /** A token spanning the first `n` characters, followed by pieces spanning the
      rest, spans the whole text. */
  lemma UnscanAfterHit<M>(v: M, s: string, n: nat, tail: seq<Piece<M>>)
    requires n <= |s| && Unscan(tail) == s[n..]
    ensures Unscan([Hit(v, s[..n])] + tail) == s
  {
    var ps := [Hit(v, s[..n])] + tail;
    assert ps[1..] == tail;
    assert s == s[..n] + s[n..];
  }

  /** Reference definition of a leftmost scan: maximal literal stretches in which
      no token starts, alternating with the tokens the matcher recognises. */
  ghost predicate IsLeftmostScan<M>(at: string -> Option<Match<M>>, s: string, ps: seq<Piece<M>>)
    decreases |ps|
  {
    if |ps| == 0 then |s| == 0
    else match ps[0]
      case Hit(v, raw) =>
        && MatchesAt(at, s)
        && at(s).value == Match(v, |raw|)
        && raw == s[..|raw|]
        && IsLeftmostScan(at, s[|raw|..], ps[1..])
      case Text(t) =>
        && 0 < |t| <= |s|
        && t == s[..|t|]
        && (forall j :: 0 <= j < |t| ==> !MatchesAt(at, s[j..]))
        && (|ps| > 1 ==> ps[1].Hit?)
        && IsLeftmostScan(at, s[|t|..], ps[1..])
  }

  /** The scan meets the reference definition. */
  lemma {:induction false} ScanIsLeftmost<M>(at: string -> Option<Match<M>>, s: string)
    ensures IsLeftmostScan(at, s, Scan(at, s))
    decreases |s|
  {
    if |s| == 0 {
    } else if MatchesAt(at, s) {
      var n := at(s).value.len;
      ScanIsLeftmost(at, s[n..]);
      var ps := Scan(at, s);
      assert ps[1..] == Scan(at, s[n..]);
    } else {
      ScanIsLeftmost(at, s[1..]);
      ScanLiteralHead(at, s);
      PushCharLeftmost(at, s, Scan(at, s[1..]));
    }
  }

  /** Prepending a character at which no token starts to a leftmost scan of the
      rest gives a leftmost scan of the whole. */
  lemma PushCharLeftmost<M>(at: string -> Option<Match<M>>, s: string, tail: seq<Piece<M>>)
    requires |s| > 0 && !MatchesAt(at, s)
    requires IsLeftmostScan(at, s[1..], tail)
    ensures IsLeftmostScan(at, s, PushChar(s[0], tail))
  {
    var ps := PushChar(s[0], tail);
    if |tail| > 0 && tail[0].Text? {
      var t' := tail[0].text;
      assert ps[1..] == tail[1..];
      assert s[1..][|t'|..] == s[|t'| + 1..];
      assert t' == s[1..][..|t'|];
      forall j | 0 <= j < |t'| + 1 ensures !MatchesAt(at, s[j..]) {
        if j > 0 {
          assert s[j..] == s[1..][j - 1..];
        } else {
          assert s[0..] == s;
        }
      }
    } else {
      assert ps[1..] == tail;
      assert s[0..] == s;
    }
  }

  /** A scan meeting the reference definition is the scan: leftmost scans are unique. */
  lemma {:induction false} LeftmostIsScan<M>(at: string -> Option<Match<M>>, s: string, ps: seq<Piece<M>>)
    requires IsLeftmostScan(at, s, ps)
    ensures ps == Scan(at, s)
    decreases |s|
  {
    if |ps| > 0 {
      match ps[0]
      case Hit(v, raw) =>
        LeftmostIsScan(at, s[|raw|..], ps[1..]);
        LeftmostHit(at, s, ps);
      case Text(t) =>
        assert !MatchesAt(at, s) by {
          assert s[0..] == s;
        }
        var ps' := if |t| == 1 then ps[1..] else [Text(t[1..])] + ps[1..];
        LeftmostTail(at, s, ps);
        LeftmostIsScan(at, s[1..], ps');
        LeftmostText(at, s, ps, ps');
    }
  }

  /** The uniqueness step for a leading token. */
  lemma LeftmostHit<M>(at: string -> Option<Match<M>>, s: string, ps: seq<Piece<M>>)
    requires |ps| > 0 && ps[0].Hit? && IsLeftmostScan(at, s, ps)
    requires ps[1..] == Scan(at, s[|ps[0].raw|..])
    ensures ps == Scan(at, s)
  {
    assert ps == [ps[0]] + ps[1..];
  }

  /** Dropping the first character of a leading text piece leaves a leftmost scan of the rest. */
  lemma LeftmostTail<M>(at: string -> Option<Match<M>>, s: string, ps: seq<Piece<M>>)
    requires |ps| > 0 && ps[0].Text? && IsLeftmostScan(at, s, ps)
    ensures var t := ps[0].text;
            IsLeftmostScan(at, s[1..], if |t| == 1 then ps[1..] else [Text(t[1..])] + ps[1..])
  {
    var t := ps[0].text;
    if |t| > 1 {
      var ps' := [Text(t[1..])] + ps[1..];
      assert ps'[1..] == ps[1..];
      assert s[1..][|t| - 1..] == s[|t|..];
      forall j | 0 <= j < |t| - 1 ensures !MatchesAt(at, s[1..][j..]) {
        assert s[1..][j..] == s[j + 1..];
      }
    }
  }

  /** The uniqueness step for a leading text piece. */
  lemma LeftmostText<M>(at: string -> Option<Match<M>>, s: string, ps: seq<Piece<M>>, ps': seq<Piece<M>>)
    requires |ps| > 0 && ps[0].Text? && IsLeftmostScan(at, s, ps)
    requires |s| > 0 && !MatchesAt(at, s)
    requires ps' == (if |ps[0].text| == 1 then ps[1..] else [Text(ps[0].text[1..])] + ps[1..])
    requires ps' == Scan(at, s[1..])
    ensures ps == Scan(at, s)
  {
    var t := ps[0].text;
    ScanLiteralHead(at, s);
    assert t[0] == s[0];
    if |t| == 1 {
      assert t == [s[0]];
      assert ps == [ps[0]] + ps[1..];
    } else {
      assert ps'[1..] == ps[1..];
      assert [s[0]] + t[1..] == t;
      assert ps == [ps[0]] + ps[1..];
    }
  }

  /** What the scan yields when no token starts anywhere in the text. */
  lemma ScanWithoutMatch<M>(at: string -> Option<Match<M>>, s: string)
    requires forall j :: 0 <= j < |s| ==> !MatchesAt(at, s[j..])
    ensures Scan(at, s) == if |s| == 0 then [] else [Text(s)]
  {
    if |s| > 0 {
      assert s[|s|..] == [];
      LeftmostIsScan(at, s, [Text(s)]);
    }
  }

  /** What the scan yields on a literal character followed by more text. */
  lemma ScanLiteralHead<M>(at: string -> Option<Match<M>>, s: string)
    requires |s| > 0 && !MatchesAt(at, s)
    ensures Scan(at, s) == PushChar(s[0], Scan(at, s[1..]))
  {
  }

  /** What the scan yields on a token followed by more text. */
  lemma ScanAfterHit<M>(at: string -> Option<Match<M>>, s: string, v: M, n: nat)
    requires at(s) == Some(Match(v, n)) && 0 < n <= |s|
    ensures Scan(at, s) == [Hit(v, s[..n])] + Scan(at, s[n..])
  {
  }

  /** `String.prototype.replace` with a callback: every hit replaced by `f` of its value. */
  function Replace<M>(ps: seq<Piece<M>>, f: M -> string): string
    decreases |ps|
  {
    if |ps| == 0 then ""
    else
      (match ps[0] case Text(t) => t case Hit(v, _) => f(v)) + Replace(ps[1..], f)
  }

  /** Text in which no token starts comes out of a replacement unchanged. */
  lemma ReplaceWithoutMatch<M>(at: string -> Option<Match<M>>, s: string, f: M -> string)
    requires forall j :: 0 <= j < |s| ==> !MatchesAt(at, s[j..])
    ensures Replace(Scan(at, s), f) == s
  {
    ScanWithoutMatch(at, s);
    if |s| > 0 {
      var ps := [Text(s)];
      assert ps[1..] == [];
      assert Replace(ps, f) == s + Replace([], f);
    }
  }

  /** A token is replaced by `f` of its value and the scan resumes after it. */
  lemma ReplaceAfterHit<M>(at: string -> Option<Match<M>>, s: string, v: M, n: nat, f: M -> string)
    requires at(s) == Some(Match(v, n)) && 0 < n <= |s|
    ensures Replace(Scan(at, s), f) == f(v) + Replace(Scan(at, s[n..]), f)
  {
    var ps := Scan(at, s);
    assert ps == [Hit(v, s[..n])] + Scan(at, s[n..]);
    assert ps[1..] == Scan(at, s[n..]);
  }

  /** A replacement keeps the literal characters as they were. */
  lemma ReplacePushChar<M>(c: char, ps: seq<Piece<M>>, f: M -> string)
    ensures Replace(PushChar(c, ps), f) == [c] + Replace(ps, f)
  {
    var r := PushChar(c, ps);
    if |ps| > 0 && ps[0].Text? {
      assert r[1..] == ps[1..];
    } else {
      assert r[1..] == ps;
    }
  }

  /** A literal first character passes through a replacement unchanged. */
  lemma ReplaceLiteralHead<M>(at: string -> Option<Match<M>>, t: string, f: M -> string)
    requires |t| > 0 && !MatchesAt(at, t)
    ensures Replace(Scan(at, t), f) == [t[0]] + Replace(Scan(at, t[1..]), f)
  {
    ScanLiteralHead(at, t);
    ReplacePushChar(t[0], Scan(at, t[1..]), f);
  }

  lemma ReplaceStep<M>(at: string -> Option<Match<M>>, s: string, k: nat, f: M -> string)
    requires 0 < k <= |s| && !MatchesAt(at, s[k - 1..])
    ensures Replace(Scan(at, s[k - 1..]), f) == [s[k - 1]] + Replace(Scan(at, s[k..]), f)
  {
    ReplaceLiteralHead(at, s[k - 1..], f);
    assert s[k - 1..][1..] == s[k..];
  }

  /** Text in which no token starts passes through a replacement unchanged. */
  lemma {:induction false} ReplaceSkipsLiteral<M>(at: string -> Option<Match<M>>, s: string, k: nat, f: M -> string)
    requires k <= |s|
    requires forall j :: 0 <= j < k ==> !MatchesAt(at, s[j..])
    ensures Replace(Scan(at, s), f) == s[..k] + Replace(Scan(at, s[k..]), f)
    decreases k
  {
    if k > 0 {
      var x, y, z := Replace(Scan(at, s), f), Replace(Scan(at, s[k - 1..]), f), Replace(Scan(at, s[k..]), f);
      assert x == s[..k - 1] + y by {
        ReplaceSkipsLiteral(at, s, k - 1, f);
      }
      assert y == [s[k - 1]] + z by {
        ReplaceStep(at, s, k, f);
      }
      Regroup(x, s[..k - 1], y, [s[k - 1]], z);
      TakeSnoc(s, k);
    }
  }
}

=== FILE: scenarios.dfy ===
/**
 Whole-text consequences of the expansion in tasks/bake.js lines 159-191: what
 an inline option is visible to, the `_if` gate, and an include rendered into
 its place. The texts are built from rendered directives, so every lemma holds
 for all paths, keys and values of the stated shape.
 */
module Scenarios {
  import opened Strings
  import opened Scanner
  import opened Data
  import opened Placeholders
  import opened Directives
  import opened InlineOptions
  import opened Paths
  import opened Indent
  import opened Expander

  /** A directive without indent and with the single inline option `key="value"`. */
  function WithOption(path: string, key: string, value: string): Directive {
    Directive("", path, Attr((key, value)))
  }

  /** A directive without indent and without inline options. */
  function Plain(path: string): Directive {
    Directive("", path, "")
  }

  /** A single-segment placeholder key. */
  predicate IsTopKey(key: string) {
    '.' !in key && forall i :: 0 <= i < |key| ==> IsKeyChar(key[i])
  }

  /** An option that reads back as itself and whose value is plain text. */
  predicate IsOption(key: string, value: string) {
    && Renderable((key, value))
    && '>' !in key && '>' !in value && '{' !in key && '{' !in value
  }

  /** Text that holds no directive and no placeholder. */
  predicate IsPlain(t: string) {
    '!' !in t && '{' !in t
  }

  lemma OneOption(key: string, value: string)
    requires Renderable((key, value))
    ensures ParseInlineOptions(Attr((key, value))) == map[key := value]
  {
    var pairs := [(key, value)];
    ParseRenderedAttrs(pairs);
    assert RenderAttrs(pairs) == Attr((key, value));
    assert PairsToMap(pairs[1..], map[][key := value]) == map[key := value];
  }

  /** A rendered directive holds a `{` only where its attributes do. */
  lemma RenderNoBrace(d: Directive)
    requires WellFormed(d) && '{' !in d.attributes
    ensures '{' !in Render(d)
  {
    assert forall x :: 0 <= x < |d.path| ==> d.path[x] != '{';
    assert forall x :: 0 <= x < |d.indent| ==> d.indent[x] != '{';
  }

  /** A rendered directive at the start of a processed text is replaced first,
      and the text after it is expanded with the data the replacement left. */
  lemma ExpandRendered(fuel: nat, d: Directive, rest: string, filePath: string, scope: Scope, cfg: Config, fs: FileSystem)
    requires WellFormed(d)
    ensures ExpandProcessed(fuel, Render(d) + rest, filePath, scope, cfg, fs) ==
            Continue(ExpandDirective(fuel, d, filePath, scope, cfg, fs), fuel, rest, filePath, cfg, fs)
  {
    RenderRoundTrip(d, rest);
    ExpandAfterDirective(fuel, Render(d) + rest, d, |Render(d)|, filePath, scope, cfg, fs);
    assert (Render(d) + rest)[|Render(d)|..] == rest;
  }

  /** A rendered directive alone is exactly its replacement. */
  lemma ExpandRenderedAlone(fuel: nat, d: Directive, filePath: string, scope: Scope, cfg: Config, fs: FileSystem)
    requires WellFormed(d)
    ensures ExpandProcessed(fuel, Render(d), filePath, scope, cfg, fs) == ExpandDirective(fuel, d, filePath, scope, cfg, fs)
  {
    ExpandRendered(fuel, d, "", filePath, scope, cfg, fs);
    assert Render(d) + "" == Render(d);
    var r := ExpandDirective(fuel, d, filePath, scope, cfg, fs);
    if r.Success? {
      ExpandWithoutDirectives(fuel, "", filePath, r.value.scope, cfg, fs);
      assert r.value.text + "" == r.value.text;
    }
  }

  /** A text that is one token is replaced by the token's resolved value. */
  lemma TokenAlone(key: string, scope: Scope)
    requires forall i :: 0 <= i < |key| ==> IsKeyChar(key[i])
    ensures DefaultProcess("{{" + key + "}}", scope) == ResolveName(key, scope)
  {
    var t := "{{" + key + "}}";
    PlaceholderRoundTrip(key, "");
    assert t + "" == t;
    ReplaceAfterHit(PlaceholderAt, t, key, |key| + 4, Resolver(scope));
    var empty := t[|key| + 4..];
    assert |empty| == 0;
    assert Replace(Scan(PlaceholderAt, empty), Resolver(scope)) == "";
  }

  /** A file that is just `{{key}}` expands to the value the data holds for the key. */
  lemma PlaceholderFile(fuel: nat, text: string, key: string, value: string, filePath: string, scope: Scope, cfg: Config, fs: FileSystem)
    requires cfg.process.DefaultProcessor?
    requires text == "{{" + key + "}}"
    requires IsTopKey(key) && key in scope && scope[key] == Str(value)
    requires value != "" && '!' !in value
    ensures Expand(fuel, text, filePath, scope, cfg, fs) == Success(Expansion(value, scope))
  {
    TokenAlone(key, scope);
    ResolveTopLevel(key, scope);
    NoBangNoDirective(value);
    ExpandWithoutDirectives(fuel, value, filePath, scope, cfg, fs);
  }

  lemma WithOptionWellFormed(path: string, key: string, value: string)
    requires IsPath(path) && IsOption(key, value)
    ensures WellFormed(WithOption(path, key, value)) && '{' !in WithOption(path, key, value).attributes
  {
  }

  lemma PlainWellFormed(path: string)
    requires IsPath(path)
    ensures WellFormed(Plain(path)) && '{' !in Plain(path).attributes
  {
  }

  /** The built-in processors leave a rendered directive without braces alone,
      so such a text expands to the directive's replacement. */
  lemma ExpandRenderedText(fuel: nat, d: Directive, filePath: string, scope: Scope, cfg: Config, fs: FileSystem)
    requires WellFormed(d) && '{' !in d.attributes && !cfg.process.CustomProcessor?
    ensures Expand(fuel, Render(d), filePath, scope, cfg, fs) == ExpandDirective(fuel, d, filePath, scope, cfg, fs)
  {
    RenderNoBrace(d);
    if cfg.process.DefaultProcessor? {
      NoBraceNoPlaceholder(Render(d));
      NoPlaceholderUnchanged(Render(d), scope);
    }
    ExpandRenderedAlone(fuel, d, filePath, scope, cfg, fs);
  }

  /** Two rendered directives in a row: the second is replaced with the data
      the first left. */
  lemma ExpandRenderedPair(fuel: nat, d1: Directive, d2: Directive, filePath: string, scope: Scope, cfg: Config, fs: FileSystem)
    requires WellFormed(d1) && '{' !in d1.attributes && WellFormed(d2) && '{' !in d2.attributes
    requires !cfg.process.CustomProcessor?
    ensures Expand(fuel, Render(d1) + Render(d2), filePath, scope, cfg, fs) ==
            Continue(ExpandDirective(fuel, d1, filePath, scope, cfg, fs), fuel, Render(d2), filePath, cfg, fs)
  {
    RenderNoBrace(d1);
    RenderNoBrace(d2);
    if cfg.process.DefaultProcessor? {
      NoBraceNoPlaceholder(Render(d1) + Render(d2));
      NoPlaceholderUnchanged(Render(d1) + Render(d2), scope);
    }
    ExpandRendered(fuel, d1, Render(d2), filePath, scope, cfg, fs);
  }

  /** A directive without indent whose one option is not `_if` is replaced by
      the expansion of the included file with the option written into the data. */
  lemma IncludeWithOption(fuel: nat, d: Directive, key: string, value: string, filePath: string, scope: Scope, cfg: Config, fs: FileSystem,
                           r: Result<Expansion>)
    requires d.indent == "" && ParseInlineOptions(d.attributes) == map[key := value] && key != "_if"
    requires 0 < fuel && ResolveIncludePath(d.path, filePath, cfg.basePath) in fs
    requires var included := ResolveIncludePath(d.path, filePath, cfg.basePath);
      Expand(fuel - 1, fs[included], included, scope[key := Str(value)], cfg, fs) == r
    ensures ExpandDirective(fuel, d, filePath, scope, cfg, fs) == r
  {
    MergeOne(scope, key, value);
  }

  /** A directive without indent and without options is replaced by the
      expansion of the included file with the data as it is. */
  lemma IncludePlain(fuel: nat, d: Directive, filePath: string, scope: Scope, cfg: Config, fs: FileSystem, r: Result<Expansion>)
    requires d.indent == "" && ParseInlineOptions(d.attributes) == map[]
    requires 0 < fuel && ResolveIncludePath(d.path, filePath, cfg.basePath) in fs
    requires var included := ResolveIncludePath(d.path, filePath, cfg.basePath);
      Expand(fuel - 1, fs[included], included, scope, cfg, fs) == r
    ensures ExpandDirective(fuel, d, filePath, scope, cfg, fs) == r
  {
    MergeNothing(scope);
  }

  /** Including a file that is `{{key}}` gives the value the data holds. */
  lemma IncludeToken(fuel: nat, d: Directive, key: string, value: string, filePath: string, scope: Scope, cfg: Config, fs: FileSystem)
    requires cfg.process.DefaultProcessor?
    requires d.indent == "" && ParseInlineOptions(d.attributes) == map[]
    requires IsTopKey(key) && key in scope && scope[key] == Str(value)
    requires value != "" && '!' !in value
    requires 0 < fuel
    requires ResolveIncludePath(d.path, filePath, cfg.basePath) in fs
    requires fs[ResolveIncludePath(d.path, filePath, cfg.basePath)] == "{{" + key + "}}"
    ensures ExpandDirective(fuel, d, filePath, scope, cfg, fs) == Success(Expansion(value, scope))
  {
    var included := ResolveIncludePath(d.path, filePath, cfg.basePath);
    var text := fs[included];
    PlaceholderFile(fuel - 1, text, key, value, included, scope, cfg, fs);
    IncludePlain(fuel, d, filePath, scope, cfg, fs, Success(Expansion(value, scope)));
  }

  /** Including a file that is `{{key}}` with `key="value"` gives the value. */
  lemma IncludeTokenWithOption(fuel: nat, d: Directive, key: string, value: string, filePath: string, scope: Scope, cfg: Config, fs: FileSystem)
    requires cfg.process.DefaultProcessor?
    requires d.indent == "" && ParseInlineOptions(d.attributes) == map[key := value] && key != "_if"
    requires IsTopKey(key) && value != "" && '!' !in value
    requires 0 < fuel
    requires ResolveIncludePath(d.path, filePath, cfg.basePath) in fs
    requires fs[ResolveIncludePath(d.path, filePath, cfg.basePath)] == "{{" + key + "}}"
    ensures ExpandDirective(fuel, d, filePath, scope, cfg, fs) == Success(Expansion(value, scope[key := Str(value)]))
  {
    OptionsMergeFirst(fuel, d, filePath, scope, cfg, fs);
    MergeOne(scope, key, value);
    NoOptions();
    IncludeToken(fuel, d.(attributes := ""), key, value, filePath, scope[key := Str(value)], cfg, fs);
  }

  /** Including plain text with `key="value"` gives the text and sets the value. */
  lemma IncludeBodyWithOption(fuel: nat, d: Directive, key: string, value: string, body: string, filePath: string, scope: Scope, cfg: Config, fs: FileSystem)
    requires cfg.process.DefaultProcessor?
    requires d.indent == "" && ParseInlineOptions(d.attributes) == map[key := value] && key != "_if"
    requires 0 < fuel
    requires ResolveIncludePath(d.path, filePath, cfg.basePath) in fs
    requires fs[ResolveIncludePath(d.path, filePath, cfg.basePath)] == body && IsPlain(body)
    ensures ExpandDirective(fuel, d, filePath, scope, cfg, fs) == Success(Expansion(body, scope[key := Str(value)]))
  {
    ExpandPlainText(fuel - 1, body, ResolveIncludePath(d.path, filePath, cfg.basePath), scope[key := Str(value)], cfg, fs);
    IncludeWithOption(fuel, d, key, value, filePath, scope, cfg, fs, Success(Expansion(body, scope[key := Str(value)])));
  }

  /** An inline option is visible to the file it includes: a file holding
      `{{key}}` included with `key="value"` expands to the value, and the data
      keeps the value afterwards. */
  lemma OptionReachesInclude(fuel: nat, path: string, key: string, value: string, filePath: string, scope: Scope, cfg: Config, fs: FileSystem)
    requires cfg.process.DefaultProcessor?
    requires IsPath(path) && IsTopKey(key) && key != "_if" && IsOption(key, value) && '!' !in value
    requires 0 < fuel
    requires ResolveIncludePath(path, filePath, cfg.basePath) in fs
    requires fs[ResolveIncludePath(path, filePath, cfg.basePath)] == "{{" + key + "}}"
    ensures Expand(fuel, Render(WithOption(path, key, value)), filePath, scope, cfg, fs) ==
            Success(Expansion(value, scope[key := Str(value)]))
  {
    WithOptionWellFormed(path, key, value);
    ExpandRenderedText(fuel, WithOption(path, key, value), filePath, scope, cfg, fs);
    OneOption(key, value);
    IncludeTokenWithOption(fuel, WithOption(path, key, value), key, value, filePath, scope, cfg, fs);
  }

  /** The processor resolves a trailing token of a brace-free text. */
  lemma ProcessTrailingToken(t: string, key: string, scope: Scope)
    requires '{' !in t && forall i :: 0 <= i < |key| ==> IsKeyChar(key[i])
    ensures DefaultProcess(t + "{{" + key + "}}", scope) == t + ResolveName(key, scope)
  {
    NoBraceNoPlaceholder(t);
    ProcessToken(t, key, "", scope);
    assert t + "{{" + key + "}}" + "" == t + "{{" + key + "}}";
    assert DefaultProcess("", scope) == "";
  }

  /** A token after a rendered directive resolves against the data as it is
      before the directive, to nothing when the data lacks the key. */
  lemma HiddenToken(d: Directive, key: string, scope: Scope)
    requires WellFormed(d) && '{' !in d.attributes && IsTopKey(key) && key !in scope
    ensures DefaultProcess(Render(d) + "{{" + key + "}}", scope) == Render(d)
  {
    RenderNoBrace(d);
    ProcessTrailingToken(Render(d), key, scope);
    ResolveTopLevel(key, scope);
    assert Render(d) + "" == Render(d);
  }

  /** The including text does not see its own directive's option: the whole
      text is processed before any directive is expanded, so a `{{key}}` after
      the directive has already been resolved, to the empty string when the
      data lacks the key, although the data holds the value once the
      expansion is done. */
  lemma OptionHiddenFromIncludingText(fuel: nat, path: string, key: string, value: string, body: string, filePath: string, scope: Scope, cfg: Config, fs: FileSystem)
    requires cfg.process.DefaultProcessor?
    requires IsPath(path) && IsTopKey(key) && key != "_if" && IsOption(key, value)
    requires key !in scope
    requires 0 < fuel
    requires ResolveIncludePath(path, filePath, cfg.basePath) in fs
    requires fs[ResolveIncludePath(path, filePath, cfg.basePath)] == body && IsPlain(body)
    ensures Expand(fuel, Render(WithOption(path, key, value)) + "{{" + key + "}}", filePath, scope, cfg, fs) ==
            Success(Expansion(body, scope[key := Str(value)]))
  {
    var d := WithOption(path, key, value);
    WithOptionWellFormed(path, key, value);
    assert Process(cfg, Render(d) + "{{" + key + "}}", scope) == Render(d) by {
      HiddenToken(d, key, scope);
    }
    assert ExpandProcessed(fuel, Render(d), filePath, scope, cfg, fs) == ExpandDirective(fuel, d, filePath, scope, cfg, fs) by {
      ExpandRenderedAlone(fuel, d, filePath, scope, cfg, fs);
    }
    OneOption(key, value);
    IncludeBodyWithOption(fuel, d, key, value, body, filePath, scope, cfg, fs);
  }

  /** A later sibling sees an earlier directive's option: the merge writes into
      the one shared data object, so a second include holding `{{key}}`
      expands to the value the first directive set. */
  lemma OptionSeenByLaterSibling(fuel: nat, first: string, second: string, key: string, value: string, body: string,
                                 filePath: string, scope: Scope, cfg: Config, fs: FileSystem)
    requires cfg.process.DefaultProcessor?
    requires IsPath(first) && IsPath(second)
    requires IsTopKey(key) && key != "_if" && IsOption(key, value) && '!' !in value
    requires 0 < fuel
    requires ResolveIncludePath(first, filePath, cfg.basePath) in fs
    requires fs[ResolveIncludePath(first, filePath, cfg.basePath)] == body && IsPlain(body)
    requires ResolveIncludePath(second, filePath, cfg.basePath) in fs
    requires fs[ResolveIncludePath(second, filePath, cfg.basePath)] == "{{" + key + "}}"
    ensures Expand(fuel, Render(WithOption(first, key, value)) + Render(Plain(second)), filePath, scope, cfg, fs) ==
            Success(Expansion(body + value, scope[key := Str(value)]))
  {
    var d1, d2 := WithOption(first, key, value), Plain(second);
    var merged := scope[key := Str(value)];
    WithOptionWellFormed(first, key, value);
    PlainWellFormed(second);
    assert Expand(fuel, Render(d1) + Render(d2), filePath, scope, cfg, fs) ==
           Continue(ExpandDirective(fuel, d1, filePath, scope, cfg, fs), fuel, Render(d2), filePath, cfg, fs) by {
      ExpandRenderedPair(fuel, d1, d2, filePath, scope, cfg, fs);
    }
    assert ExpandDirective(fuel, d1, filePath, scope, cfg, fs) == Success(Expansion(body, merged)) by {
      OneOption(key, value);
      IncludeBodyWithOption(fuel, d1, key, value, body, filePath, scope, cfg, fs);
    }
    assert ExpandProcessed(fuel, Render(d2), filePath, merged, cfg, fs) == ExpandDirective(fuel, d2, filePath, merged, cfg, fs) by {
      ExpandRenderedAlone(fuel, d2, filePath, merged, cfg, fs);
    }
    assert ExpandDirective(fuel, d2, filePath, merged, cfg, fs) == Success(Expansion(value, merged)) by {
      NoOptions();
      IncludeToken(fuel, d2, key, value, filePath, merged, cfg, fs);
    }
  }

  /** A file that is one directive with `key="value"` including plain text
      expands to that text and leaves the value in the data. */
  lemma NestedSetsOption(fuel: nat, path: string, key: string, value: string, body: string, filePath: string, scope: Scope, cfg: Config, fs: FileSystem)
    requires cfg.process.DefaultProcessor?
    requires IsPath(path) && key != "_if" && IsOption(key, value)
    requires 0 < fuel
    requires ResolveIncludePath(path, filePath, cfg.basePath) in fs
    requires fs[ResolveIncludePath(path, filePath, cfg.basePath)] == body && IsPlain(body)
    ensures Expand(fuel, Render(WithOption(path, key, value)), filePath, scope, cfg, fs) ==
            Success(Expansion(body, scope[key := Str(value)]))
  {
    WithOptionWellFormed(path, key, value);
    ExpandRenderedText(fuel, WithOption(path, key, value), filePath, scope, cfg, fs);
    OneOption(key, value);
    IncludeBodyWithOption(fuel, WithOption(path, key, value), key, value, body, filePath, scope, cfg, fs);
  }

  /** An option set inside a nested include outlives it: the including file's
      later directives see it too, because the nested expansion mutated the
      same data object. */
  lemma OptionLeaksFromNestedInclude(fuel: nat, outer: string, inner: string, second: string, key: string, value: string, body: string,
                                     filePath: string, scope: Scope, cfg: Config, fs: FileSystem)
    requires cfg.process.DefaultProcessor?
    requires IsPath(outer) && IsPath(inner) && IsPath(second)
    requires IsTopKey(key) && key != "_if" && IsOption(key, value) && '!' !in value
    requires 1 < fuel
    requires ResolveIncludePath(outer, filePath, cfg.basePath) in fs
    requires fs[ResolveIncludePath(outer, filePath, cfg.basePath)] == Render(WithOption(inner, key, value))
    requires ResolveIncludePath(inner, ResolveIncludePath(outer, filePath, cfg.basePath), cfg.basePath) in fs
    requires fs[ResolveIncludePath(inner, ResolveIncludePath(outer, filePath, cfg.basePath), cfg.basePath)] == body && IsPlain(body)
    requires ResolveIncludePath(second, filePath, cfg.basePath) in fs
    requires fs[ResolveIncludePath(second, filePath, cfg.basePath)] == "{{" + key + "}}"
    ensures Expand(fuel, Render(Plain(outer)) + Render(Plain(second)), filePath, scope, cfg, fs) ==
            Success(Expansion(body + value, scope[key := Str(value)]))
  {
    var d1, d2 := Plain(outer), Plain(second);
    var middle := ResolveIncludePath(outer, filePath, cfg.basePath);
    var merged := scope[key := Str(value)];
    PlainWellFormed(outer);
    PlainWellFormed(second);
    assert Expand(fuel, Render(d1) + Render(d2), filePath, scope, cfg, fs) ==
           Continue(ExpandDirective(fuel, d1, filePath, scope, cfg, fs), fuel, Render(d2), filePath, cfg, fs) by {
      ExpandRenderedPair(fuel, d1, d2, filePath, scope, cfg, fs);
    }
    assert ExpandDirective(fuel, d1, filePath, scope, cfg, fs) == Success(Expansion(body, merged)) by {
      NestedSetsOption(fuel - 1, inner, key, value, body, middle, scope, cfg, fs);
      NoOptions();
      IncludePlain(fuel, d1, filePath, scope, cfg, fs, Success(Expansion(body, merged)));
    }
    assert ExpandProcessed(fuel, Render(d2), filePath, merged, cfg, fs) == ExpandDirective(fuel, d2, filePath, merged, cfg, fs) by {
      ExpandRenderedAlone(fuel, d2, filePath, merged, cfg, fs);
    }
    assert ExpandDirective(fuel, d2, filePath, merged, cfg, fs) == Success(Expansion(value, merged)) by {
      NoOptions();
      IncludeToken(fuel, d2, key, value, filePath, merged, cfg, fs);
    }
  }

  /** `_if` naming a key the data lacks, or holds as `false`, drops the
      directive: it expands to nothing, the data stays as it was, and the
      include is never read, so a missing file is no failure. */
  lemma ConditionFailsDropsDirective(fuel: nat, path: string, name: string, filePath: string, scope: Scope, cfg: Config, fs: FileSystem)
    requires !cfg.process.CustomProcessor?
    requires IsPath(path) && IsOption("_if", name) && '.' !in name
    requires name !in scope || scope[name] == Bool(false)
    ensures Expand(fuel, Render(WithOption(path, "_if", name)), filePath, scope, cfg, fs) == Success(Expansion("", scope))
  {
    WithOptionWellFormed(path, "_if", name);
    ExpandRenderedText(fuel, WithOption(path, "_if", name), filePath, scope, cfg, fs);
    OneOption("_if", name);
    ResolveTopLevel(name, scope);
  }

  /** `_if` naming a key the data holds as anything but `false` includes the
      file as if the directive had no options: `_if` itself is never merged. */
  lemma ConditionHoldsIncludes(fuel: nat, path: string, name: string, filePath: string, scope: Scope, cfg: Config, fs: FileSystem)
    requires !cfg.process.CustomProcessor?
    requires IsPath(path) && IsOption("_if", name) && '.' !in name
    requires name in scope && scope[name] != Bool(false)
    ensures Expand(fuel, Render(WithOption(path, "_if", name)), filePath, scope, cfg, fs) ==
            Expand(fuel, Render(Plain(path)), filePath, scope, cfg, fs)
  {
    WithOptionWellFormed(path, "_if", name);
    PlainWellFormed(path);
    ExpandRenderedText(fuel, WithOption(path, "_if", name), filePath, scope, cfg, fs);
    ExpandRenderedText(fuel, Plain(path), filePath, scope, cfg, fs);
    OneOption("_if", name);
    NoOptions();
    ResolveTopLevel(name, scope);
    assert map["_if" := name] - {"_if"} == map[];
  }

  /** A directive with an indent and no options, including a plain file, is
      replaced by the file with the indent put in front of every line, the
      first included. The indent in front of the directive belongs to the
      match, so it is replaced too and the first line carries it only once. */
  lemma IndentedInclude(fuel: nat, indent: string, path: string, filePath: string, scope: Scope, cfg: Config, fs: FileSystem)
    requires !cfg.process.CustomProcessor?
    requires IsPath(path) && forall i :: 0 <= i < |indent| ==> IsIndentChar(indent[i])
    requires 0 < fuel && ResolveIncludePath(path, filePath, cfg.basePath) in fs
    requires IsPlain(fs[ResolveIncludePath(path, filePath, cfg.basePath)])
    ensures var body := fs[ResolveIncludePath(path, filePath, cfg.basePath)];
      Expand(fuel, Render(Directive(indent, path, "")), filePath, scope, cfg, fs) ==
      Success(Expansion(ApplyIndent(indent, body), scope))
  {
    var d := Directive(indent, path, "");
    var included := ResolveIncludePath(path, filePath, cfg.basePath);
    var text := ApplyIndent(indent, fs[included]);
    assert IsPlain(text) by {
      ApplyIndentChars(indent, fs[included], '!');
      ApplyIndentChars(indent, fs[included], '{');
      assert '!' !in indent && '{' !in indent;
    }
    ExpandPlainText(fuel - 1, text, included, scope, cfg, fs);
    NoOptions();
    IncludeIndented(fuel, d, filePath, scope, cfg, fs, Success(Expansion(text, scope)));
    ExpandRenderedText(fuel, d, filePath, scope, cfg, fs);
  }

  /** A directive without options is replaced by the expansion of the included
      file, indented, with the data as it is. */
  lemma IncludeIndented(fuel: nat, d: Directive, filePath: string, scope: Scope, cfg: Config, fs: FileSystem, r: Result<Expansion>)
    requires ParseInlineOptions(d.attributes) == map[]
    requires 0 < fuel && ResolveIncludePath(d.path, filePath, cfg.basePath) in fs
    requires var included := ResolveIncludePath(d.path, filePath, cfg.basePath);
      Expand(fuel - 1, ApplyIndent(d.indent, fs[included]), included, scope, cfg, fs) == r
    ensures ExpandDirective(fuel, d, filePath, scope, cfg, fs) == r
  {
    MergeNothing(scope);
  }

  /** An included body is indented first and processed after: a file that is
      one `{{key}}` under an indent gives the indent followed by the value,
      so a value of several lines carries the indent on its first line only. */
  lemma IndentedToken(fuel: nat, indent: string, path: string, key: string, value: string,
                      filePath: string, scope: Scope, cfg: Config, fs: FileSystem)
    requires cfg.process.DefaultProcessor?
    requires IsPath(path) && forall i :: 0 <= i < |indent| ==> IsIndentChar(indent[i])
    requires IsTopKey(key) && key in scope && scope[key] == Str(value) && IsPlain(value)
    requires 0 < fuel && ResolveIncludePath(path, filePath, cfg.basePath) in fs
    requires fs[ResolveIncludePath(path, filePath, cfg.basePath)] == "{{" + key + "}}"
    ensures Expand(fuel, Render(Directive(indent, path, "")), filePath, scope, cfg, fs) == Success(Expansion(indent + value, scope))
  {
    var d := Directive(indent, path, "");
    var included := ResolveIncludePath(path, filePath, cfg.basePath);
    var token := "{{" + key + "}}";
    assert ApplyIndent(indent, token) == indent + token by {
      assert forall i :: 0 <= i < |key| ==> key[i] != '\n';
      assert '\n' !in token;
      SplitWithoutSeparator(token, '\n');
    }
    assert '!' !in indent && '{' !in indent;
    HeaderFile(fuel - 1, indent + token, key, value, indent, "", included, scope, cfg, fs);
    assert indent + value + "" == indent + value;
    NoOptions();
    IncludeIndented(fuel, d, filePath, scope, cfg, fs, Success(Expansion(indent + value, scope)));
    ExpandRenderedText(fuel, d, filePath, scope, cfg, fs);
  }

  /** Indenting after processing would differ: a value of several lines under a
      non-empty indent is not the indent followed by the value once indented,
      since every line after the first gains the indent as well. */
  lemma IndentAfterwardsDiffers(indent: string, value: string)
    requires |indent| > 0 && '\n' !in indent && '\n' in value
    ensures ApplyIndent(indent, value) != indent + value
  {
    var parts := Split(value, '\n');
    JoinHead(parts, '\n');
    var a, b := parts[0], Join(parts[1..], '\n');
    assert value == a + ['\n'] + b;
    SecondLineIndented(indent, a, b);
    SecondLineBare(indent, a, b);
  }

  /** Indenting `a`, a line feed and `b` puts the indent in front of `b`'s first line. */
  lemma SecondLineIndented(indent: string, a: string, b: string)
    requires |indent| > 0 && '\n' !in indent && '\n' !in a
    ensures var lines := Split(ApplyIndent(indent, a + ['\n'] + b), '\n');
      |lines| > 1 && lines[1] == indent + Split(b, '\n')[0]
  {
    var v := a + ['\n'] + b;
    ApplyIndentLines(indent, v);
    SplitAround(a, b, '\n');
    SplitWithoutSeparator(a, '\n');
    assert Split(v, '\n')[1] == Split(b, '\n')[0];
  }

  /** With the indent in front of the first line only, `b`'s first line is bare. */
  lemma SecondLineBare(indent: string, a: string, b: string)
    requires '\n' !in indent && '\n' !in a
    ensures var lines := Split(indent + (a + ['\n'] + b), '\n');
      |lines| > 1 && lines[1] == Split(b, '\n')[0]
  {
    assert indent + (a + ['\n'] + b) == (indent + a) + ['\n'] + b;
    assert '\n' !in indent + a;
    SplitAround(indent + a, b, '\n');
    SplitWithoutSeparator(indent + a, '\n');
  }

  /** A file of plain text around `{{key}}` expands to the text around the value. */
  lemma HeaderFile(fuel: nat, text: string, key: string, value: string, before: string, after: string,
                   filePath: string, scope: Scope, cfg: Config, fs: FileSystem)
    requires cfg.process.DefaultProcessor?
    requires text == before + "{{" + key + "}}" + after
    requires IsTopKey(key) && key in scope && scope[key] == Str(value)
    requires IsPlain(value) && IsPlain(before) && IsPlain(after)
    ensures Expand(fuel, text, filePath, scope, cfg, fs) == Success(Expansion(before + value + after, scope))
  {
    assert Process(cfg, text, scope) == before + value + after by {
      ResolveTopLevel(key, scope);
      NoBraceNoPlaceholder(before);
      ProcessToken(before, key, after, scope);
      NoBraceNoPlaceholder(after);
      NoPlaceholderUnchanged(after, scope);
    }
    assert ExpandProcessed(fuel, before + value + after, filePath, scope, cfg, fs) == Success(Expansion(before + value + after, scope)) by {
      NoBangNoDirective(before + value + after);
      ExpandWithoutDirectives(fuel, before + value + after, filePath, scope, cfg, fs);
    }
  }

  /** Including plain text around `{{key}}` gives the text around the value. */
  lemma IncludeHeader(fuel: nat, path: string, key: string, value: string, before: string, after: string,
                      filePath: string, scope: Scope, cfg: Config, fs: FileSystem)
    requires cfg.process.DefaultProcessor?
    requires IsTopKey(key) && key in scope && scope[key] == Str(value)
    requires value != "" && IsPlain(value) && IsPlain(before) && IsPlain(after)
    requires 0 < fuel
    requires ResolveIncludePath(path, filePath, cfg.basePath) in fs
    requires fs[ResolveIncludePath(path, filePath, cfg.basePath)] == before + "{{" + key + "}}" + after
    ensures ExpandDirective(fuel, Plain(path), filePath, scope, cfg, fs) == Success(Expansion(before + value + after, scope))
  {
    var included := ResolveIncludePath(path, filePath, cfg.basePath);
    var text := fs[included];
    HeaderFile(fuel - 1, text, key, value, before, after, included, scope, cfg, fs);
    NoOptions();
    IncludePlain(fuel, Plain(path), filePath, scope, cfg, fs, Success(Expansion(before + value + after, scope)));
  }

  /** An include expanded in place with the including text's own placeholders
      resolved: `header` holding `{{key}}` between plain text, included by a
      directive followed by plain text and `{{key}}`, gives the header with the
      value, then the text, then the value again. */
  lemma IncludeWithPlaceholders(fuel: nat, path: string, key: string, value: string, before: string, after: string, mid: string,
                                filePath: string, scope: Scope, cfg: Config, fs: FileSystem)
    requires cfg.process.DefaultProcessor?
    requires IsPath(path) && IsTopKey(key) && key in scope && scope[key] == Str(value)
    requires value != "" && IsPlain(value) && IsPlain(before) && IsPlain(after) && IsPlain(mid)
    requires 0 < fuel
    requires ResolveIncludePath(path, filePath, cfg.basePath) in fs
    requires fs[ResolveIncludePath(path, filePath, cfg.basePath)] == before + "{{" + key + "}}" + after
    ensures Expand(fuel, Render(Plain(path)) + mid + "{{" + key + "}}", filePath, scope, cfg, fs) ==
            Success(Expansion(before + value + after + (mid + value), scope))
  {
    var d := Plain(path);
    PlainWellFormed(path);
    assert Process(cfg, Render(d) + mid + "{{" + key + "}}", scope) == Render(d) + (mid + value) by {
      RenderNoBrace(d);
      ProcessTrailingToken(Render(d) + mid, key, scope);
      ResolveTopLevel(key, scope);
    }
    assert ExpandProcessed(fuel, Render(d) + (mid + value), filePath, scope, cfg, fs) ==
           Continue(ExpandDirective(fuel, d, filePath, scope, cfg, fs), fuel, mid + value, filePath, cfg, fs) by {
      ExpandRendered(fuel, d, mid + value, filePath, scope, cfg, fs);
    }
    assert ExpandDirective(fuel, d, filePath, scope, cfg, fs) == Success(Expansion(before + value + after, scope)) by {
      IncludeHeader(fuel, path, key, value, before, after, filePath, scope, cfg, fs);
    }
    assert ExpandProcessed(fuel, mid + value, filePath, scope, cfg, fs) == Success(Expansion(mid + value, scope)) by {
      NoBangNoDirective(mid + value);
      ExpandWithoutDirectives(fuel, mid + value, filePath, scope, cfg, fs);
    }
  }
}

=== FILE: strings.dfy ===
/**
 Character classes and the two string primitives the template engine leans on:
 splitting on a separator (JavaScript's `String.prototype.split` with a one-character
 string) and joining back (`Array.prototype.join`).
 */
module Strings {

  /** JavaScript's `\s`: the ECMAScript WhiteSpace and LineTerminator code points. */
  predicate IsSpace(c: char) {
    var n := c as int;
    n == 0x09 || n == 0x0A || n == 0x0B || n == 0x0C || n == 0x0D || n == 0x20
    || n == 0xA0 || n == 0x1680 || (0x2000 <= n <= 0x200A) || n == 0x2028 || n == 0x2029
    || n == 0x202F || n == 0x205F || n == 0x3000 || n == 0xFEFF
  }

  /** JavaScript's `\w`: ASCII letters, digits and underscore. */
  predicate IsWordChar(c: char) {
    ('a' <= c <= 'z') || ('A' <= c <= 'Z') || ('0' <= c <= '9') || c == '_'
  }

  /** Length of the longest prefix of `s` whose characters all satisfy `p`
      (what a greedy `[...]*` consumes). */
  function SpanLen(s: string, p: char -> bool): (n: nat)
    ensures n <= |s|
    ensures forall i :: 0 <= i < n ==> p(s[i])
    ensures n < |s| ==> !p(s[n])
    decreases |s|
  {
    if |s| == 0 || !p(s[0]) then 0 else 1 + SpanLen(s[1..], p)
  }

  /** The span is pinned down by where the run of `p` characters stops. */
  lemma SpanLenIs(s: string, p: char -> bool, n: nat)
    requires n <= |s|
    requires forall i :: 0 <= i < n ==> p(s[i])
    requires n == |s| || !p(s[n])
    ensures SpanLen(s, p) == n
  {
  }

  /** A run of `p` characters followed by a stopper spans exactly the run. */
  lemma RunThenStop(x: string, t: string, p: char -> bool)
    requires forall i :: 0 <= i < |x| ==> p(x[i])
    requires |t| > 0 && !p(t[0])
    ensures SpanLen(x + t, p) == |x|
  {
    var s := x + t;
    assert forall i :: 0 <= i < |x| ==> s[i] == x[i];
    assert s[|x|] == t[0];
    SpanLenIs(s, p, |x|);
  }

  /** `parts.join(sep)`. */
  function Join(parts: seq<string>, sep: char): string
    decreases |parts|
  {
    if |parts| == 0 then ""
    else if |parts| == 1 then parts[0]
    else parts[0] + [sep] + Join(parts[1..], sep)
  }

  /** A character occurs in joined parts exactly when it occurs in some part,
      or it is the separator and there are at least two parts. */
  lemma {:induction false} JoinChars(parts: seq<string>, sep: char, c: char)
    ensures c in Join(parts, sep) <==> (c == sep && |parts| > 1) || exists i :: 0 <= i < |parts| && c in parts[i]
    decreases |parts|
  {
    if |parts| == 1 {
      assert c in parts[0] <==> exists i :: 0 <= i < |parts| && c in parts[i];
    } else if |parts| > 1 {
      var rest := parts[1..];
      JoinChars(rest, sep, c);
      assert Join(parts, sep) == parts[0] + [sep] + Join(rest, sep);
      if exists i :: 0 <= i < |parts| && c in parts[i] {
        var i :| 0 <= i < |parts| && c in parts[i];
        if i > 0 {
          assert c in rest[i - 1];
        }
      }
      if exists i :: 0 <= i < |rest| && c in rest[i] {
        var i :| 0 <= i < |rest| && c in rest[i];
        assert c in parts[i + 1];
      }
    }
  }

  /** `s.split(sep)`: at least one part, no part contains the separator, and
      joining the parts with the separator gives `s` back. */
  function Split(s: string, sep: char): (parts: seq<string>)
    ensures |parts| >= 1
    ensures forall i :: 0 <= i < |parts| ==> sep !in parts[i]
    ensures Join(parts, sep) == s
    decreases |s|
  {
    if |s| == 0 then [""]
    else
      var rest := Split(s[1..], sep);
      if s[0] == sep then
        assert s == [sep] + s[1..];
        [""] + rest
      else
        var parts := [[s[0]] + rest[0]] + rest[1..];
        assert parts[1..] == rest[1..];
        assert s == [s[0]] + s[1..];
        parts
  }

  /** Splitting what was joined gives the parts back, when no part holds the separator. */
  lemma {:induction false} SplitJoin(parts: seq<string>, sep: char)
    requires |parts| >= 1
    requires forall i :: 0 <= i < |parts| ==> sep !in parts[i]
    ensures Split(Join(parts, sep), sep) == parts
    decreases |parts|, |parts[0]|
  {
    var p := parts[0];
    if |p| > 0 {
      // Peel the first character off the first part.
      var parts' := [p[1..]] + parts[1..];
      PeelFirst(parts, sep);
      SplitJoin(parts', sep);
      SplitConsChar(parts, parts', sep);
    } else if |parts| > 1 {
      var tail := parts[1..];
      assert forall i :: 0 <= i < |tail| ==> sep !in tail[i] by {
        forall i | 0 <= i < |tail| ensures sep !in tail[i] {
          assert tail[i] == parts[i + 1];
        }
      }
      SplitJoin(tail, sep);
      SplitConsSep(parts, sep);
    }
  }

  lemma PeelFirst(parts: seq<string>, sep: char)
    requires |parts| >= 1 && |parts[0]| > 0
    requires forall i :: 0 <= i < |parts| ==> sep !in parts[i]
    ensures var parts' := [parts[0][1..]] + parts[1..];
            && (forall i :: 0 <= i < |parts'| ==> sep !in parts'[i])
            && parts[0][0] != sep
            && Join(parts, sep) == [parts[0][0]] + Join(parts', sep)
  {
    var p := parts[0];
    var parts' := [p[1..]] + parts[1..];
    assert parts'[1..] == parts[1..];
    forall i | 0 <= i < |parts'| ensures sep !in parts'[i] {
      if i == 0 {
        assert forall c :: c in p[1..] ==> c in p;
      } else {
        assert parts'[i] == parts[i];
      }
    }
    assert p[0] in p;
    JoinHead(parts, sep);
    JoinHead(parts', sep);
  }

  lemma SplitConsChar(parts: seq<string>, parts': seq<string>, sep: char)
    requires |parts| >= 1 && |parts[0]| > 0 && parts[0][0] != sep
    requires parts' == [parts[0][1..]] + parts[1..]
    requires Join(parts, sep) == [parts[0][0]] + Join(parts', sep)
    requires Split(Join(parts', sep), sep) == parts'
    ensures Split(Join(parts, sep), sep) == parts
  {
    var p := parts[0];
    var j := Join(parts, sep);
    assert j[1..] == Join(parts', sep);
    assert Split(j, sep) == [[p[0]] + parts'[0]] + parts'[1..];
    assert [p[0]] + p[1..] == p;
    assert parts'[1..] == parts[1..];
    assert parts == [parts[0]] + parts[1..];
  }

  lemma SplitConsSep(parts: seq<string>, sep: char)
    requires |parts| > 1 && parts[0] == ""
    requires Split(Join(parts[1..], sep), sep) == parts[1..]
    ensures Split(Join(parts, sep), sep) == parts
  {
    var j := Join(parts, sep);
    assert j == [sep] + Join(parts[1..], sep);
    assert j[1..] == Join(parts[1..], sep);
    assert parts == [""] + parts[1..];
  }

  /** The text of a join starts with the first part, followed by the rest. */
  lemma JoinHead(parts: seq<string>, sep: char)
    requires |parts| >= 1
    ensures Join(parts, sep) == parts[0] + (if |parts| == 1 then "" else [sep] + Join(parts[1..], sep))
  {
  }

  /** A text without the separator splits into itself alone. */
  lemma SplitWithoutSeparator(s: string, sep: char)
    requires sep !in s
    ensures Split(s, sep) == [s]
  {
    SplitJoin([s], sep);
  }

  /** Joining two non-empty lists of parts puts one separator between their joins. */
  lemma {:induction false} JoinAppend(a: seq<string>, b: seq<string>, sep: char)
    requires |a| >= 1 && |b| >= 1
    ensures Join(a + b, sep) == Join(a, sep) + [sep] + Join(b, sep)
    decreases |a|
  {
    if |a| == 1 {
      assert (a + b)[1..] == b;
    } else {
      assert (a + b)[1..] == a[1..] + b;
      JoinAppend(a[1..], b, sep);
    }
  }

  /** Splitting around one occurrence of the separator splits both sides independently. */
  lemma SplitAround(a: string, b: string, sep: char)
    ensures Split(a + [sep] + b, sep) == Split(a, sep) + Split(b, sep)
  {
    var pa, pb := Split(a, sep), Split(b, sep);
    JoinAppend(pa, pb, sep);
    assert forall i :: 0 <= i < |pa + pb| ==> sep !in (pa + pb)[i] by {
      forall i | 0 <= i < |pa + pb| ensures sep !in (pa + pb)[i] {
        if i < |pa| { assert (pa + pb)[i] == pa[i]; } else { assert (pa + pb)[i] == pb[i - |pa|]; }
      }
    }
    SplitJoin(pa + pb, sep);
  }

  /** Cutting a concatenation where its parts meet gives the parts back. */
  lemma SplitAt(a: string, t: string)
    ensures (a + t)[..|a|] == a && (a + t)[|a|..] == t
  {
  }

  /** A prefix cut in two at `k`. */
  lemma TakeSplit<T>(s: seq<T>, k: nat, n: nat)
    requires k <= n <= |s|
    ensures s[..n] == s[..k] + s[k..][..n - k]
  {
  }

  /** A prefix one longer is the shorter prefix and the next character. */
  lemma TakeSnoc<T>(s: seq<T>, k: nat)
    requires 0 < k <= |s|
    ensures s[..k] == s[..k - 1] + [s[k - 1]]
  {
  }

  /** Concatenation regrouped, kept apart from larger proofs so that it stays cheap. */
  lemma Regroup(x: string, a: string, y: string, r: string, z: string)
    requires x == a + y && y == r + z
    ensures x == a + r + z
  {
  }
}
